=== FILE: README.md ===
# request-scrubber validation engine, modelled in Dafny

This project models the validation engine of request-scrubber, a declarative
object validator. The core is `lib/validate.js`. Its `validateField` takes one
raw value through a fixed chain of steps:

1. absence and null;
2. the delimiter split;
3. the parser;
4. the type stage;
5. then one of three things: the model fetch with its `mustExist` count check, the
   per-element object validation of `validateObjectArray`, or passing the value
   through unchanged.

Its `validateObject` does three things:

- it checks for undeclared input keys when `failOnUnknownFields` is set;
- it sends each declared field either to a nested `validateObject` (a container
  field with `fields`) or to `validateField`;
- it collects a result map and an error map keyed by field name.

The leaves are the type predicates of `lib/types.js` and the parsers of
`lib/parsers.js`. The fetch collaborator is the mock store of `test/mock_model.js`.

Layout, one module per file:

- `strings.dfy` (`Strings`): `split` with a string separator, `join`, and the
  lemmas that relate them.
- `values.dfy` (`Values`): JavaScript values as a datatype, with `undefined`,
  `null`, booleans, integers, `NaN`, strings, arrays and plain objects. It also
  has the string conversion that `parseInt` and `RegExp.test` apply.
- `types.dfy` (`Types`): the type predicates. The `validator` package checks
  (`isUUID` for version 4, `isEmail`, `isFQDN`, `isISO8601`) are function-valued
  fields of a `ValidatorLib` value that every caller passes in. They are left
  uninterpreted.
- `parsers.dfy` (`Parsers`): `stringToInt` as `parseInt` with no radix, plus
  `stringToBoolean` and `stringToAllBoolean`.
- `mock_model.dfy` (`MockModel`): the store's `get` and `getMany`. `getMany` is a
  method whose loop builds the reply; it is proved equal to a specification
  function.
- `validate.dfy` (`Validate`): the engine as functions. Each callback in the
  source fires before its caller returns, so each call is a function from its
  inputs to an outcome. Throws in the source become an explicit outcome that
  propagates to the top the way the exception does:
  - `.split` of a non-string;
  - `assert.object` of a non-object;
  - a fetch function the store does not have;
  - the store's `forEach` over a non-array.

  The same outcome also stands for one stop of the model's own: an object array
  whose live value is not an array (see "Left out").
- `validate_impl.dfy` (`ValidateImpl`): the engine as the source runs it. The
  live value is reassigned step by step. The type stage is a loop that exits at
  the first element of the wrong type. Element and field loops fill the
  result and error maps. Every method is proved to return exactly what the
  matching function of `Validate` specifies.
- `validate_lemmas.dfy` (`ValidateLemmas`): what the engine promises. This
  covers the order of the steps, the type stage, the fetch counts, object
  arrays, container fields, aggregation and undeclared keys.

## Model

| member | source | states |
|---|---|---|
| Strings.JoinSplit | lib/validate.js:42-44 | joining the pieces of `s.split(sep)` with `sep` gives `s` back, for every separator including the empty one |
| Strings.SplitOnCount | lib/validate.js:42-44 | splitting on a one-character delimiter gives one piece more than the delimiter occurs |
| Strings.SplitOnPiecesFree | lib/validate.js:42-44 | no piece of a split on a one-character delimiter contains the delimiter |
| Strings.SplitOnJoin | lib/validate.js:42-44 | splitting a delimiter-joined list of delimiter-free pieces gives the pieces back |
| Types.StringGuardRejects | lib/types.js:10-39 | `uuid`, `email`, `fqdn`, `rfqdn` and `iso8601` reject every non-string, whatever the library would answer |
| Types.PlainChecks | lib/types.js:4-52 | `string`, `boolean` and `number` hold exactly for strings, booleans and numbers; `number` rejects NaN; `custom` always holds; `allBoolean` holds exactly for true, false and `"all"` |
| Types.ReverseLabelsTwice | lib/types.js:28-33 | reversing the dot-separated labels twice gives the input back |
| Types.RfqdnMirrorsFqdn | lib/types.js:22-33 | `rfqdn` accepts a string exactly when `fqdn` accepts its label-reversed form, and the other way round |
| Types.E164Bounds | lib/types.js:46-49 | a string matching the E.164 pattern has 3 to 16 characters, starts with `+`, has at most 15 digits and no leading zero |
| Types.E164NeedsStringOrArray | lib/types.js:46-49 | no value other than a string or an array passes `e164` (a number converts to digits, after a `-` if it is negative, never to a leading `+`; every other value converts to text with letters) |
| Parsers.ParseIntDigits | lib/parsers.js:3 | `parseInt` reads a string of decimal digits as the number it denotes |
| Parsers.ParseIntShowInt | lib/parsers.js:3 | `parseInt` of the decimal form of any integer gives the integer back |
| Parsers.StringToIntOfNumber | lib/parsers.js:3 | `stringToInt` leaves an integer unchanged, so the result passes `number` |
| Parsers.StringToIntRejectsLetters | test/index.js:480-518 | `stringToInt("abcde")` is NaN, which `number` rejects |
| Parsers.ParseIntNumberOrNaN | lib/parsers.js:3 | `parseInt` yields a number or NaN and nothing else |
| Parsers.StringToBooleanChecked | lib/parsers.js:5-13 | `stringToBoolean` gives true exactly for `"true"`, false exactly for `"false"` and null for every other input; `boolean` accepts its result exactly for those two inputs |
| Parsers.StringToAllBooleanTotal | lib/parsers.js:14-20 | `stringToAllBoolean` maps `"true"`/`"false"` to the booleans and everything else to `"all"`; it never yields null and always satisfies `allBoolean` |
| MockModel.GetMany | test/mock_model.js:16-27 | the `forEach` loop replies with no error and the records of the known ids, in input order |
| MockModel.GetAnswers | test/mock_model.js:5-14 | `get` never reports an error; it yields null for an unknown id and `{id, name: "something"}` for a known one |
| MockModel.KnownRecordsAppend | test/mock_model.js:16-27 | the records of a concatenation are the concatenated records, so input order is kept |
| MockModel.KnownRecordsMembers | test/mock_model.js:16-27 | a record is in the reply exactly when it is the record of some known input id |
| MockModel.KnownRecordsCount | test/mock_model.js:16-27 | the reply is never longer than the input, and is as long exactly when every id is known |
| MockModel.OneOfTwoKnown | test/mock_model.js:16-27 | one known and one unknown id, in either order, give a single record |
| Validate.FirstFailing | lib/validate.js:55-62 | finds the first element failing the check, with every earlier element passing, or reports that all pass |
| ValidateImpl.ValidateField | lib/validate.js:20-122 | the step-by-step `validateField` returns the outcome `Validate.FieldResult` specifies |
| ValidateImpl.Prepare | lib/validate.js:41-54 | the reassignments of the live value by the split and the parser give `Validate.Prepared` |
| ValidateImpl.CheckType | lib/validate.js:55-71 | the early-exit scan reports what `Validate.TypeStage` specifies |
| ValidateImpl.Fetch | lib/validate.js:72-107 | choosing the store method, calling it and checking the count give `Validate.FetchResult` |
| ValidateImpl.ValidateObjectArray | lib/validate.js:108-116 | the element loop gives `Validate.ObjectArrayResult` |
| ValidateImpl.ValidateObject | lib/validate.js:124-201 | the key scan and the field loop filling the two maps give `Validate.ObjectResult` |
| ValidateLemmas.CollectThrewSticks | lib/validate.js:150-189 | once a field throws, no later field changes the outcome |
| ValidateLemmas.ElementsThrewSticks | lib/validate.js:110-116 | once an element throws, no later element changes the outcome |
| ValidateLemmas.AbsentAndNullFirst | lib/validate.js:20-40 | undefined fails with `RequiredMissing` when `required` and otherwise passes as undefined; null fails with `NullNotAllowed` when `notNull` and otherwise passes as null; neither depends on any other rule of the field, and neither throws |
| ValidateLemmas.PresenceGuardsFieldResult | lib/validate.js:13-40 | a value `presence` accepts is never refused as missing or null, whatever the field; a field both `required` and `notNull` refuses every value `presence` rejects |
| ValidateLemmas.DelimiterSplits | lib/validate.js:42-44 | a delimiter turns a string into string pieces that rejoin to it; a one-character delimiter gives one more piece than it occurs and no piece contains it; a non-string cannot be split |
| ValidateLemmas.ParserPerPiece | lib/validate.js:46-54 | with a delimiter the parser is applied to each piece, in order; without one, it is applied once to the whole value |
| ValidateLemmas.TypeStageVerdict | lib/validate.js:55-71 | an array passes exactly when every element passes, else fails with the first failing element as `badValue`; `ensureArray` rejects any other value with that value, whatever the check; otherwise the value itself is checked |
| ValidateLemmas.StepsAfterTypeStage | lib/validate.js:55-121 | a type error is the field's outcome, and setting or removing `modelFetch` does not change it; a passing value goes to the fetch, else to the object-array step, else through unchanged |
| ValidateLemmas.FetchMany | lib/validate.js:72-107 | with a delimiter or `many`, `getMany` is called; the outcome is the known records, or with `mustExist` and some unknown id `NotFound(requested, found)` with found < requested; a non-array throws |
| ValidateLemmas.FetchOne | lib/validate.js:72-107 | otherwise `get` is called; a known id gives its record; an unknown one gives null, or `NotFound(1, 0)` under `mustExist` |
| ValidateLemmas.FetchUnknownFunction | lib/validate.js:78-81 | a `fetchFunction` the store lacks throws, whatever the value |
| ValidateLemmas.FetchFunctionOverrides | lib/validate.js:73-88 | a `fetchFunction` names the store method whatever `delimiter` and `many` say; without `mustExist` the outcome does not depend on them, and with it only through whether the field is plural; `get` named this way gives its answer as the result |
| ValidateLemmas.ObjectLengthCounts | lib/validate.js:84-103 | on a plural `get` field with `mustExist`, the value `{length: 1}` asks for one record, and the null answer is reported as one missing record |
| Validate.LengthOf | lib/validate.js:87 | `liveValue.length` is the element count of an array and an object's own `length` when that is a count; only arrays, strings and objects have one |
| ValidateLemmas.UuidList | lib/validate.js:42-107 | a comma-joined list of ids that pass the UUID check, with the store and `mustExist`, gives the records when all ids are known, else the requested and found counts |
| ValidateLemmas.UuidListRejects | lib/validate.js:55-71 | an id the UUID check rejects fails as `WrongType` carrying the string, and is never fetched |
| ValidateLemmas.FetchExampleKnown | test/index.js:821-844 | the known id passes with a one-record array whose name is `"something"`; null is refused as not allowed |
| ValidateLemmas.FetchExampleUnknown | test/index.js:829-835 | the unknown id gives "expected 1 but got 0" |
| ValidateLemmas.FetchExampleOneOfTwo | test/index.js:845-851 | an unknown and a known id give "expected 2 but got 1" |
| ValidateLemmas.FetchExampleMisformed | test/index.js:853-860 | the misformed id is a type error whose `badValue` is the string |
| ValidateLemmas.ElementsShape | lib/validate.js:108-116 | the elements all pass, each in place, exactly when none fails or throws; the first crash is thrown exactly when one throws; otherwise the first failing element's error is kept |
| ValidateLemmas.ObjectArrayVerdict | lib/validate.js:108-116 | `validateObjectArray` on an array gives the array of validated objects, the first element error, or a crash, under the same conditions |
| ValidateLemmas.ContainerCases | lib/validate.js:152-175 | for a container, a missing required value or a null `notNull` value fails without reading the nested spec; a missing optional value adds nothing to either map; an object's nested errors become the field error and a clean nested result its value; any other value throws |
| ValidateLemmas.CollectThrows | lib/validate.js:150-200 | the field pass never aborts, and throws the first crash exactly when some field throws |
| ValidateLemmas.RecordStep | lib/validate.js:178-188 | the callback of a field whose name is new records its error, or its defined value, under that name and leaves every earlier entry as it was |
| ValidateLemmas.CollectRecords | lib/validate.js:166-189 | with distinct names, a field is in the error map exactly when it failed, with its error; it is in the result map exactly when it passed with a defined value, with that value; no other key appears |
| ValidateLemmas.ObjectShape | lib/validate.js:124-201 | `validateObject` aborts with the unknown-field error exactly when asked to and an undeclared key is present; it throws exactly when some field throws; otherwise the result and error keys are disjoint declared names recording each field, and an aggregate error of the error map is reported exactly when some field failed |
| ValidateLemmas.UndeclaredKeysIgnored | lib/validate.js:132-149 | undeclared keys change nothing, since the outcome equals that of the input stripped of them, unless they trigger the unknown-field abort |
| ValidateLemmas.NestedExample | test/index.js:529-584 | `{name: {first: "Dave", last: "Finster"}}` passes as itself; with `last: null` the error is nested under `name` holding only `last` as not allowed, and the result is empty |

## Left out

- Map fields (`values`) and `Type.object` are used in test/index.js, but neither
  lib/validate.js nor lib/types.js defines them. A leaf field must name one of
  the eleven checks of lib/types.js. A field whose `type` is missing would throw
  at `field.type(...)`; that case is not modelled.
- `stringToDecimal` (`parseFloat`) is not modelled: it needs floating point.
- Numbers are unbounded integers plus NaN. There are no fractions, no
  infinities and no `-0`. Digit strings longer than double precision do not
  lose precision. Integers of 1e21 and above convert to text in plain decimal,
  not exponent form. So `stringToInt` is `parseInt` over exact integers.
- The `validator` package checks behind `uuid`, `email`, `fqdn`, `rfqdn` and
  `iso8601` are parameters (`ValidatorLib`), not definitions.
- `failOnUnknownFields`: lib/validate.js:138-144 schedules the error callback on
  a later tick but does not stop the field pass. The source therefore calls back
  once for the field pass and once more per undeclared key. The model gives the
  intended single abort, `Rejected`, checked before the field pass. The error
  map under the literal key `key` is modelled as the single `UnknownField` error.
- `assert.object` accepts arrays, so the source would validate an array's index
  keys as an object. The model reports `NotAnObject` for an array in a container
  field or an object array.
- `async.map` over a value that is not an array (after `validateObjectArray`
  with no `ensureArray`) is modelled as a stop, `MapOfNonArray`, although the
  source does not throw there: over a number or a boolean `async.map` visits
  nothing and yields `[]`, and over a plain object it validates the property
  values. The `async` library's handling of such collections is not part of
  this model.
- Strings are sequences of Unicode scalar values, while JavaScript strings are
  sequences of UTF-16 code units. For text with characters outside the Basic
  Multilingual Plane, `split` with an empty delimiter (lib/validate.js:43) and
  `liveValue.length` (lib/validate.js:87) therefore give different results in
  the model than in the source.
- A `fetchFunction` naming an inherited property of the store object (for
  example `toString`) is treated like any other missing name: it throws.
- Objects are maps of their own properties. `obj[fieldName]` in the source
  (lib/validate.js:153-177) also reads properties that every object inherits
  from `Object.prototype`. For a declared field named `constructor`,
  `toString`, `valueOf`, `hasOwnProperty` or another such member, an input
  without that key therefore gives the source a function rather than
  `undefined`. The model reads `undefined`, so a field the source would reject
  or throw on counts as missing here. Likewise `errorObj["__proto__"] = err`
  (lib/validate.js:167, 180) replaces the prototype instead of adding a key.
  So the source never reports a failing field named `__proto__`, while the model
  records it like any other name.
- ValidateImpl.Fetch: an object's own `length` that is not a non-negative
  integer (a string, a negative number, NaN) is read as no count. Against an
  array reply the model then reports `NotFound` with no expected count. The
  source compares the value itself with the reply's length, so it also
  reports missing records, with that value in the message. Where `length` is
  undefined, the source throws at `requiredLength.toString()` instead.
- The `assert-plus` checks on `spec`, `spec.fields` and the callback are
  assumed to hold. Specs are well-formed datatypes, and the field names of a
  spec are distinct, as the keys of an object are.
- The `parsedValue` write-back into the spec (lib/validate.js:171, 184) is
  dropped: neither function reads it.
- Callbacks, `async.each`, `async.map` and `process.nextTick` are flattened into
  functions and loops. Callbacks of the mock store fire at once. Elements and
  fields after a failing one are still validated, so a later crash still wins.
- The error texts (`"Not all requested records were found. Expected N but got
  M"`, the VError wrapping in the tests) are not modelled. Errors are structural
  values that carry the same counts and `badValue`s.
- Collaborators other than test/mock_model.js are not part of this model. The
  mock never reports an error, so `FetchFailed` is unreachable with it; the
  model still carries it.
- Behaviour taken from the code where the engine's documentation describes
  something else:
  - the documentation describes map fields, which the code does not have;
  - the documentation says a container field whose nested object fails still
    has its partial nested result attached, but the code returns on the error
    before attaching anything (lib/validate.js:166-169), and the model follows
    the code.

=== FILE: mock_model.dfy ===
/**
 * The record store behind the model-fetch step, as test/mock_model.js
 * implements it: a fixed table of known ids, `get` for one id and `getMany`
 * for an array of ids. Both answer through their callback at once and never
 * report an error; a missing record is a null (`get`) or a shorter array
 * (`getMany`).
 */
module MockModel {
  import opened Values

  /** A store that knows the ids in its table. */
  datatype Store = Store(validIds: seq<string>)

  /** The table of test/mock_model.js. */
  const Mock: Store := Store(["0ba29cce-25f4-47ea-965c-78b075d6ba04", "7f29afde-feea-457c-98f8-84c2697cdba2"])

  /** What a fetch passes to its callback: `(err, results)`. */
  datatype Reply = Reply(err: Option<Value>, results: Value)

  /** `validIds.indexOf(uuid) !== -1`; `indexOf` compares with `===`, so only strings match. */
  predicate Known(store: Store, uuid: Value)
  {
    uuid.Str? && uuid.s in store.validIds
  }

  /** The record the store hands out for a known id. */
  function RecordFor(uuid: Value): Value
  {
    Obj(map["id" := uuid, "name" := Str("something")])
  }

  /** `get(uuid, cb)`. */
  function Get(store: Store, uuid: Value): Reply
  {
    if !Known(store, uuid) then Reply(None, Null) else Reply(None, RecordFor(uuid))
  }

  /** The records `getMany` collects for `uuids`: one per known id, in order. */
  function KnownRecords(store: Store, uuids: seq<Value>): seq<Value>
  {
    if uuids == [] then []
    else
      var last := uuids[|uuids| - 1];
      KnownRecords(store, uuids[..|uuids| - 1]) + (if Known(store, last) then [RecordFor(last)] else [])
  }

  /** `getMany(uuids, cb)`: the `forEach` loop pushing a record for each known id. */
  method GetMany(store: Store, uuids: seq<Value>) returns (reply: Reply)
    ensures reply == Reply(None, List(KnownRecords(store, uuids)))
  {
    var returnVals: seq<Value> := [];
    for i := 0 to |uuids|
      invariant returnVals == KnownRecords(store, uuids[..i])
    {
      assert uuids[..i + 1][..i] == uuids[..i];
      if Known(store, uuids[i]) {
        returnVals := returnVals + [RecordFor(uuids[i])];
      }
    }
    assert uuids[..|uuids|] == uuids;
    reply := Reply(None, List(returnVals));
  }

  /** `get` answers null for an unknown id and the id's record for a known one, never an error. */
  lemma GetAnswers(store: Store, uuid: Value)
    ensures Get(store, uuid).err == None
    ensures !Known(store, uuid) ==> Get(store, uuid).results == Null
    ensures Known(store, uuid) ==> Get(store, uuid).results == Obj(map["id" := uuid, "name" := Str("something")])
    ensures Get(store, uuid).results != Undefined
  {
  }

  /** Collecting is order-preserving: the records of a concatenation are the concatenated records. */
  lemma {:induction false} KnownRecordsAppend(store: Store, a: seq<Value>, b: seq<Value>)
    ensures KnownRecords(store, a + b) == KnownRecords(store, a) + KnownRecords(store, b)
    decreases |b|
  {
    if b != [] {
      var b' := b[..|b| - 1];
      assert (a + b)[..|a + b| - 1] == a + b';
      assert (a + b)[|a + b| - 1] == b[|b| - 1];
      KnownRecordsAppend(store, a, b');
    } else {
      assert a + b == a;
    }
  }

  /** A record is collected exactly for each known id in the input. */
  lemma {:induction false} KnownRecordsMembers(store: Store, uuids: seq<Value>, r: Value)
    ensures r in KnownRecords(store, uuids) <==>
      exists i :: 0 <= i < |uuids| && Known(store, uuids[i]) && r == RecordFor(uuids[i])
    decreases |uuids|
  {
    if uuids != [] {
      var init := uuids[..|uuids| - 1];
      KnownRecordsMembers(store, init, r);
      if exists i :: 0 <= i < |init| && Known(store, init[i]) && r == RecordFor(init[i]) {
        var i :| 0 <= i < |init| && Known(store, init[i]) && r == RecordFor(init[i]);
        assert uuids[i] == init[i];
      }
    }
  }

  /**
   * At most one record per requested id, and exactly one per id when every id
   * is known: a shorter reply means some id was missing.
   */
  lemma {:induction false} KnownRecordsCount(store: Store, uuids: seq<Value>)
    ensures |KnownRecords(store, uuids)| <= |uuids|
    ensures |KnownRecords(store, uuids)| == |uuids| <==> forall i :: 0 <= i < |uuids| ==> Known(store, uuids[i])
    decreases |uuids|
  {
    if uuids != [] {
      var init := uuids[..|uuids| - 1];
      KnownRecordsCount(store, init);
      assert forall i :: 0 <= i < |init| ==> init[i] == uuids[i];
    }
  }

  /** The reply of `getMany` when one of two requested ids is unknown holds a single record. */
  lemma OneOfTwoKnown(store: Store, known: Value, unknown: Value)
    requires Known(store, known) && !Known(store, unknown)
    ensures KnownRecords(store, [unknown, known]) == [RecordFor(known)]
    ensures KnownRecords(store, [known, unknown]) == [RecordFor(known)]
  {
    assert [unknown, known][..1] == [unknown];
    assert [known, unknown][..1] == [known];
    assert [unknown][..0] == [] && [known][..0] == [];
    assert KnownRecords(store, [unknown]) == [];
    assert KnownRecords(store, [known]) == [RecordFor(known)];
  }
}

=== FILE: parsers.dfy ===
/**
 * The parsers of lib/parsers.js, which a field spec applies to the raw value
 * (or to each delimited piece) before the type check. `stringToInt` is the
 * built-in `parseInt` with no radix, modelled over integers; `stringToDecimal`
 * (`parseFloat`) is not part of this model.
 */
module Parsers {
  import opened Values
  import Types

  /** The parsers a field spec can name. */
  datatype Parser = StringToIntParser | StringToBooleanParser | StringToAllBooleanParser

  /** White space and line terminators, which `parseInt` skips at the start. */
  predicate IsJsSpace(c: char)
  {
    var n := c as int;
    || 0x09 <= n <= 0x0D || n == 0x20 || n == 0xA0 || n == 0x1680
    || 0x2000 <= n <= 0x200A || n == 0x2028 || n == 0x2029 || n == 0x202F
    || n == 0x205F || n == 0x3000 || n == 0xFEFF
  }

  function SkipSpace(s: string): (t: string)
    ensures |t| <= |s| && t == s[|s| - |t|..]
    ensures |t| > 0 ==> !IsJsSpace(t[0])
  {
    if |s| > 0 && IsJsSpace(s[0]) then SkipSpace(s[1..]) else s
  }

  predicate IsHexDigit(c: char)
  {
    IsDecimalDigit(c) || 'a' <= c <= 'f' || 'A' <= c <= 'F'
  }

  /** A digit of base 10, or of base 16 once a `0x` prefix was seen. */
  predicate IsDigitIn(c: char, hex: bool)
    ensures IsDigitIn(c, hex) ==> IsHexDigit(c)
  {
    if hex then IsHexDigit(c) else IsDecimalDigit(c)
  }

  function DigitValue(c: char, hex: bool): (d: nat)
    requires IsDigitIn(c, hex)
    ensures d < 16
    ensures IsDecimalDigit(c) ==> d < 10
  {
    if IsDecimalDigit(c) then c as int - '0' as int
    else if 'a' <= c <= 'f' then c as int - 'a' as int + 10
    else c as int - 'A' as int + 10
  }

  /** Length of the longest prefix of `s` made of digits. */
  function DigitRun(s: string, hex: bool): (k: nat)
    ensures k <= |s|
    ensures forall i :: 0 <= i < k ==> IsDigitIn(s[i], hex)
    ensures k < |s| ==> !IsDigitIn(s[k], hex)
  {
    if |s| > 0 && IsDigitIn(s[0], hex) then 1 + DigitRun(s[1..], hex) else 0
  }

  /** The number a run of digits denotes, most significant first. */
  function DigitsValue(s: string, hex: bool): nat
    requires forall i :: 0 <= i < |s| ==> IsDigitIn(s[i], hex)
  {
    if s == [] then 0
    else DigitsValue(s[..|s| - 1], hex) * (if hex then 16 else 10) + DigitValue(s[|s| - 1], hex)
  }

  /**
   * The digits after the sign: an optional `0x`/`0X` prefix selects base 16,
   * then the longest run of digits counts; no digits at all is a failure.
   */
  function ParseMagnitude(u: string): Option<nat>
  {
    var hex := |u| >= 2 && u[0] == '0' && (u[1] == 'x' || u[1] == 'X');
    var w := if hex then u[2..] else u;
    var k := DigitRun(w, hex);
    if k == 0 then None else Some(DigitsValue(w[..k], hex))
  }

  /**
   * `parseInt(s)` without a radix: skip leading white space, read an optional
   * sign, then the magnitude; NaN when there is none.
   */
  function ParseInt(s: string): Value
  {
    var t := SkipSpace(s);
    var negative := |t| > 0 && t[0] == '-';
    var u := if |t| > 0 && (t[0] == '-' || t[0] == '+') then t[1..] else t;
    match ParseMagnitude(u)
    case None => NaN
    case Some(m) => Num(if negative then -(m as int) else m as int)
  }

  /** `stringToInt`, which is `parseInt`: the argument is first converted to a string. */
  function StringToInt(v: Value): Value
  {
    ParseInt(ToString(v))
  }

  function StringToBoolean(v: Value): Value
  {
    if v == Str("true") then Bool(true)
    else if v == Str("false") then Bool(false)
    else Null
  }

  function StringToAllBoolean(v: Value): Value
  {
    var result := StringToBoolean(v);
    if result == Null || result == Str("all") then Str("all") else result
  }

  /** `field.parser(value)`. */
  function Apply(p: Parser, v: Value): Value
  {
    match p
    case StringToIntParser => StringToInt(v)
    case StringToBooleanParser => StringToBoolean(v)
    case StringToAllBooleanParser => StringToAllBoolean(v)
  }

  lemma {:induction false} DigitsValueOfDecimal(n: nat)
    ensures DigitsValue(DecimalDigits(n), false) == n
  {
    if n >= 10 {
      var s := DecimalDigits(n);
      DigitsValueOfDecimal(n / 10);
      assert s[..|s| - 1] == DecimalDigits(n / 10);
    }
  }

  lemma ParseMagnitudeDigits(u: string)
    requires |u| >= 1 && forall i :: 0 <= i < |u| ==> IsDecimalDigit(u[i])
    ensures ParseMagnitude(u) == Some(DigitsValue(u, false))
  {
    assert !(|u| >= 2 && u[0] == '0' && (u[1] == 'x' || u[1] == 'X'));
    var k := DigitRun(u, false);
    assert forall i :: 0 <= i < |u| ==> IsDigitIn(u[i], false);
    assert k == |u|;
    assert u[..k] == u;
  }

  /** `parseInt` reads a string of decimal digits as the number it denotes. */
  lemma ParseIntDigits(s: string)
    requires |s| >= 1 && forall i :: 0 <= i < |s| ==> IsDecimalDigit(s[i])
    ensures ParseInt(s) == Num(DigitsValue(s, false))
  {
    assert !IsJsSpace(s[0]);
    assert SkipSpace(s) == s;
    ParseMagnitudeDigits(s);
  }

  /** Parsing the decimal form of an integer gives the integer back. */
  lemma ParseIntShowInt(n: int)
    ensures ParseInt(ShowInt(n)) == Num(n)
  {
    var m := if n < 0 then -n else n;
    var d := DecimalDigits(m);
    DigitsValueOfDecimal(m);
    if n < 0 {
      var s := ShowInt(n);
      assert !IsJsSpace(s[0]);
      assert SkipSpace(s) == s;
      assert s[1..] == d;
      ParseMagnitudeDigits(d);
    } else {
      ParseIntDigits(d);
    }
  }

  /** `stringToInt` keeps integers as they are: they pass `number`. */
  lemma StringToIntOfNumber(lib: Types.ValidatorLib, n: int)
    ensures StringToInt(Num(n)) == Num(n)
    ensures Types.Holds(lib, Types.NumberType, StringToInt(Num(n)))
  {
    ParseIntShowInt(n);
  }

  /** A parse failure is NaN, which `number` then rejects (the `"abcde"` case). */
  lemma StringToIntRejectsLetters(lib: Types.ValidatorLib)
    ensures StringToInt(Str("abcde")) == NaN
    ensures !Types.Holds(lib, Types.NumberType, StringToInt(Str("abcde")))
  {
    var s := "abcde";
    assert !IsJsSpace(s[0]);
    assert SkipSpace(s) == s;
    assert !IsDigitIn(s[0], false);
    assert DigitRun(s, false) == 0;
  }

  /** `parseInt` yields a number or NaN, nothing else. */
  lemma ParseIntNumberOrNaN(s: string)
    ensures ParseInt(s).Num? || ParseInt(s).NaN?
  {
  }

  /**
   * `stringToBoolean` recognises exactly `"true"` and `"false"` and gives null
   * for everything else; `boolean` accepts its result exactly then.
   */
  lemma StringToBooleanChecked(lib: Types.ValidatorLib, v: Value)
    ensures StringToBoolean(v) != Str("all")
    ensures Types.Holds(lib, Types.BooleanType, StringToBoolean(v)) <==> v == Str("true") || v == Str("false")
    ensures StringToBoolean(v) == Bool(true) <==> v == Str("true")
    ensures StringToBoolean(v) == Bool(false) <==> v == Str("false")
    ensures v != Str("true") && v != Str("false") ==> StringToBoolean(v) == Null
  {
  }

  /**
   * `stringToAllBoolean` never yields null, maps everything but `"true"` and
   * `"false"` to `"all"`, and so always satisfies `allBoolean`. Its own test
   * for `'all'` is unreachable, since `stringToBoolean` never returns it.
   */
  lemma StringToAllBooleanTotal(lib: Types.ValidatorLib, v: Value)
    ensures StringToAllBoolean(v) != Null
    ensures StringToAllBoolean(v) == (if v == Str("true") then Bool(true) else if v == Str("false") then Bool(false) else Str("all"))
    ensures Types.Holds(lib, Types.AllBooleanType, StringToAllBoolean(v))
  {
    StringToBooleanChecked(lib, v);
  }
}

=== FILE: strings.dfy ===
/**
 * The two string operations the validator relies on: `String.prototype.split`
 * with a string separator and `Array.prototype.join`. The delimiter step of
 * `validateField` (lib/validate.js) splits a raw value with the field's
 * delimiter, and the `rfqdn` type (lib/types.js) splits a name on dots,
 * reverses the labels and joins them again.
 */
module Strings {

  /** `parts.join(sep)`: the parts with `sep` between neighbours. */
  function Join(parts: seq<string>, sep: string): string
  {
    if |parts| == 0 then ""
    else if |parts| == 1 then parts[0]
    else parts[0] + sep + Join(parts[1..], sep)
  }

  /**
   * `s.split(sep)` for a non-empty separator: the text between consecutive
   * occurrences of `sep`, scanning left to right. There is always at least one
   * piece (`"".split(",")` is `[""]`).
   */
  function SplitOn(s: string, sep: string): (parts: seq<string>)
    requires |sep| > 0
    ensures |parts| >= 1
    decreases |s|
  {
    if |s| < |sep| then [s]
    else if s[..|sep|] == sep then [""] + SplitOn(s[|sep|..], sep)
    else
      var rest := SplitOn(s[1..], sep);
      [[s[0]] + rest[0]] + rest[1..]
  }

  /** `s.split("")`: one piece per character (none for the empty string). */
  function Chars(s: string): seq<string>
  {
    seq(|s|, i requires 0 <= i < |s| => [s[i]])
  }

  /** `s.split(sep)` for any string separator. */
  function Split(s: string, sep: string): seq<string>
  {
    if sep == "" then Chars(s) else SplitOn(s, sep)
  }

  /** The elements of `xs` in the opposite order (`Array.prototype.reverse`). */
  function Reverse<T>(xs: seq<T>): seq<T>
  {
    seq(|xs|, i requires 0 <= i < |xs| => xs[|xs| - 1 - i])
  }

  /** Number of occurrences of `c` in `s`. */
  function Occurrences(s: string, c: char): nat
  {
    if s == [] then 0 else (if s[0] == c then 1 else 0) + Occurrences(s[1..], c)
  }

  lemma JoinCons(x: string, ys: seq<string>, sep: string)
    requires |ys| >= 1
    ensures Join([x] + ys, sep) == x + sep + Join(ys, sep)
  {
    assert ([x] + ys)[1..] == ys;
  }

  lemma JoinPrependChar(c: char, parts: seq<string>, sep: string)
    requires |parts| >= 1
    ensures Join([[c] + parts[0]] + parts[1..], sep) == [c] + Join(parts, sep)
  {
    if |parts| > 1 {
      JoinCons([c] + parts[0], parts[1..], sep);
      JoinCons(parts[0], parts[1..], sep);
      assert parts == [parts[0]] + parts[1..];
    } else {
      assert [[c] + parts[0]] + parts[1..] == [[c] + parts[0]];
    }
  }

  /** Splitting and joining again with the same separator gives back the string. */
  lemma {:induction false} JoinSplitOn(s: string, sep: string)
    requires |sep| > 0
    ensures Join(SplitOn(s, sep), sep) == s
    decreases |s|
  {
    if |s| < |sep| {
    } else if s[..|sep|] == sep {
      JoinSplitOn(s[|sep|..], sep);
      JoinCons("", SplitOn(s[|sep|..], sep), sep);
      assert s == sep + s[|sep|..];
    } else {
      var rest := SplitOn(s[1..], sep);
      JoinSplitOn(s[1..], sep);
      JoinPrependChar(s[0], rest, sep);
      assert s == [s[0]] + s[1..];
    }
  }

  /** The round trip of the delimiter step: the pieces rejoin to the original, for every separator. */
  lemma JoinSplit(s: string, sep: string)
    ensures Join(Split(s, sep), sep) == s
  {
    if sep == "" {
      JoinChars(s);
    } else {
      JoinSplitOn(s, sep);
    }
  }

  lemma {:induction false} JoinChars(s: string)
    ensures Join(Chars(s), "") == s
    decreases |s|
  {
    if |s| > 1 {
      JoinChars(s[1..]);
      assert Chars(s) == [[s[0]]] + Chars(s[1..]);
      JoinCons([s[0]], Chars(s[1..]), "");
      assert s == [s[0]] + s[1..];
    }
  }

  /** No piece of a split on a one-character separator contains that character. */
  lemma {:induction false} SplitOnPiecesFree(s: string, c: char)
    ensures forall i :: 0 <= i < |SplitOn(s, [c])| ==> c !in SplitOn(s, [c])[i]
    decreases |s|
  {
    if |s| < 1 {
    } else if s[..1] == [c] {
      SplitOnPiecesFree(s[1..], c);
    } else {
      SplitOnPiecesFree(s[1..], c);
      var rest := SplitOn(s[1..], [c]);
      assert c !in rest[0];
      assert s[0] != c by { assert s[..1] == [s[0]]; }
    }
  }

  /** A split on one character yields one piece more than there are occurrences of it. */
  lemma {:induction false} SplitOnCount(s: string, c: char)
    ensures |SplitOn(s, [c])| == Occurrences(s, c) + 1
    decreases |s|
  {
    if |s| >= 1 {
      SplitOnCount(s[1..], c);
      assert s[..1] == [s[0]];
    }
  }

  lemma {:induction false} SplitOnFree(x: string, c: char)
    requires c !in x
    ensures SplitOn(x, [c]) == [x]
    decreases |x|
  {
    if |x| >= 1 {
      assert x[..1] == [x[0]];
      SplitOnFree(x[1..], c);
      assert x == [x[0]] + x[1..];
    }
  }

  lemma {:induction false} SplitOnAfterPiece(x: string, c: char, y: string)
    requires c !in x
    ensures SplitOn(x + [c] + y, [c]) == [x] + SplitOn(y, [c])
    decreases |x|
  {
    var s := x + [c] + y;
    if |x| == 0 {
      assert s[..1] == [c];
      assert s[1..] == y;
    } else {
      assert s[..1] == [x[0]];
      assert s[1..] == x[1..] + [c] + y;
      SplitOnAfterPiece(x[1..], c, y);
      assert x == [x[0]] + x[1..];
    }
  }

  /**
   * Joining pieces free of a one-character separator and splitting again
   * recovers the pieces: split and join are inverse on such pieces.
   */
  lemma {:induction false} SplitOnJoin(parts: seq<string>, c: char)
    requires |parts| >= 1
    requires forall i :: 0 <= i < |parts| ==> c !in parts[i]
    ensures SplitOn(Join(parts, [c]), [c]) == parts
    decreases |parts|
  {
    if |parts| == 1 {
      SplitOnFree(parts[0], c);
    } else {
      SplitOnJoin(parts[1..], c);
      SplitOnAfterPiece(parts[0], c, Join(parts[1..], [c]));
      assert parts == [parts[0]] + parts[1..];
    }
  }

  lemma ReverseReverse<T>(xs: seq<T>)
    ensures Reverse(Reverse(xs)) == xs
  {
  }
}

=== FILE: types.dfy ===
/**
 * The type predicates of lib/types.js. Each takes one value and answers
 * true or false. The checks that the source hands to the `validator` package
 * (`isUUID` for version 4, `isEmail`, `isFQDN`, `isISO8601`) are not modelled:
 * they are the fields of a `ValidatorLib` value that every caller passes in.
 */
module Types {
  import opened Values
  import Strings

  /** The `validator` package's string checks, left uninterpreted. */
  datatype ValidatorLib = ValidatorLib(
    isUUID4: string -> bool,
    isEmail: string -> bool,
    isFQDN: string -> bool,
    isISO8601: string -> bool)

  /** The members of the exported `Type` object, as a field spec names them. */
  datatype TypeCheck =
    | StringType
    | NumberType
    | UuidType
    | EmailType
    | FqdnType
    | RfqdnType
    | Iso8601Type
    | BooleanType
    | CustomType
    | E164Type
    | AllBooleanType

  predicate IsString(v: Value)
  {
    v.Str?
  }

  /** `typeof value === 'number' && !isNaN(value)`. */
  predicate IsNumber(v: Value)
  {
    v.Num?
  }

  predicate IsUuid(lib: ValidatorLib, v: Value)
  {
    IsString(v) && lib.isUUID4(v.s)
  }

  predicate IsEmail(lib: ValidatorLib, v: Value)
  {
    IsString(v) && lib.isEmail(v.s)
  }

  predicate IsFqdn(lib: ValidatorLib, v: Value)
  {
    IsString(v) && lib.isFQDN(v.s)
  }

  /** `s.split('.').reverse().join('.')`: the dot-separated labels in reverse order. */
  function ReverseLabels(s: string): string
  {
    Strings.Join(Strings.Reverse(Strings.SplitOn(s, ".")), ".")
  }

  /** A domain name written with its labels reversed (`com.example.www`). */
  predicate IsRfqdn(lib: ValidatorLib, v: Value)
  {
    IsString(v) && lib.isFQDN(ReverseLabels(v.s))
  }

  predicate IsIso8601(lib: ValidatorLib, v: Value)
  {
    IsString(v) && lib.isISO8601(v.s)
  }

  predicate IsBoolean(v: Value)
  {
    v.Bool?
  }

  /** The escape hatch: a field whose value is checked elsewhere. */
  predicate IsCustom(v: Value)
  {
    true
  }

  predicate AllDecimalDigits(s: string)
  {
    forall i :: 0 <= i < |s| ==> IsDecimalDigit(s[i])
  }

  /** The regular expression `^\+[1-9]\d{1,14}$`, read term by term. */
  predicate E164Pattern(s: string)
  {
    && |s| >= 2
    && s[0] == '+'
    && '1' <= s[1] <= '9'
    && 1 <= |s[2..]| <= 14
    && AllDecimalDigits(s[2..])
  }

  /** `pattern.test(value)`, which first converts the value to a string. */
  predicate IsE164(v: Value)
  {
    E164Pattern(ToString(v))
  }

  predicate IsAllBoolean(v: Value)
  {
    v == Bool(true) || v == Bool(false) || v == Str("all")
  }

  /** `field.type(value)` for the predicate the spec names. */
  predicate Holds(lib: ValidatorLib, t: TypeCheck, v: Value)
  {
    match t
    case StringType => IsString(v)
    case NumberType => IsNumber(v)
    case UuidType => IsUuid(lib, v)
    case EmailType => IsEmail(lib, v)
    case FqdnType => IsFqdn(lib, v)
    case RfqdnType => IsRfqdn(lib, v)
    case Iso8601Type => IsIso8601(lib, v)
    case BooleanType => IsBoolean(v)
    case CustomType => IsCustom(v)
    case E164Type => IsE164(v)
    case AllBooleanType => IsAllBoolean(v)
  }

  /** The checks backed by the `validator` package first require a string. */
  predicate StringGuarded(t: TypeCheck)
  {
    t.UuidType? || t.EmailType? || t.FqdnType? || t.RfqdnType? || t.Iso8601Type?
  }

  /**
   * A string-guarded check rejects every non-string, whatever the library
   * would answer: the library is never consulted for it.
   */
  lemma StringGuardRejects(lib: ValidatorLib, t: TypeCheck, v: Value)
    requires StringGuarded(t) && !v.Str?
    ensures !Holds(lib, t, v)
  {
  }

  /** `string`, `number`, `boolean`, `custom` and `allBoolean` accept exactly their values. */
  lemma PlainChecks(lib: ValidatorLib, v: Value)
    ensures Holds(lib, StringType, v) <==> v.Str?
    ensures Holds(lib, BooleanType, v) <==> v.Bool?
    ensures Holds(lib, NumberType, v) <==> v.Num?
    ensures !Holds(lib, NumberType, NaN)
    ensures Holds(lib, CustomType, v)
    ensures Holds(lib, AllBooleanType, v) <==> v.Bool? || v == Str("all")
  {
  }

  /** Reversing the labels twice restores the name. */
  lemma ReverseLabelsTwice(s: string)
    ensures ReverseLabels(ReverseLabels(s)) == s
  {
    var ps := Strings.SplitOn(s, ".");
    var rs := Strings.Reverse(ps);
    Strings.SplitOnPiecesFree(s, '.');
    assert forall i :: 0 <= i < |rs| ==> '.' !in rs[i] by {
      forall i | 0 <= i < |rs| ensures '.' !in rs[i] {
        assert rs[i] == ps[|ps| - 1 - i];
      }
    }
    Strings.SplitOnJoin(rs, '.');
    Strings.ReverseReverse(ps);
    Strings.JoinSplitOn(s, ".");
  }

  /**
   * `rfqdn` and `fqdn` are mirror images: a name passes one exactly when its
   * label-reversed form passes the other.
   */
  lemma RfqdnMirrorsFqdn(lib: ValidatorLib, s: string)
    ensures Holds(lib, RfqdnType, Str(s)) == Holds(lib, FqdnType, Str(ReverseLabels(s)))
    ensures Holds(lib, FqdnType, Str(s)) == Holds(lib, RfqdnType, Str(ReverseLabels(s)))
  {
    ReverseLabelsTwice(s);
  }

  /** Number of decimal digits in `s`. */
  function DigitCount(s: string): nat
  {
    if s == [] then 0 else (if IsDecimalDigit(s[0]) then 1 else 0) + DigitCount(s[1..])
  }

  lemma {:induction false} DigitCountAll(s: string)
    requires AllDecimalDigits(s)
    ensures DigitCount(s) == |s|
    decreases |s|
  {
    if s != [] {
      DigitCountAll(s[1..]);
    }
  }

  /**
   * An accepted number is `+` followed by 2 to 15 digits without a leading
   * zero: 3 to 16 characters, at most 15 digits, the E.164 maximum.
   */
  lemma E164Bounds(s: string)
    requires E164Pattern(s)
    ensures 3 <= |s| <= 16
    ensures s[0] == '+' && !IsDecimalDigit(s[0])
    ensures DigitCount(s) == |s| - 1 <= 15
    ensures s[1] != '0'
  {
    assert AllDecimalDigits(s[1..]) by {
      forall i | 0 <= i < |s[1..]| ensures IsDecimalDigit(s[1..][i]) {
        if i > 0 { assert s[1..][i] == s[2..][i - 1]; }
      }
    }
    DigitCountAll(s[1..]);
  }

  /**
   * Because `test` converts its argument to a string first, only strings and
   * arrays (whose string form is their joined elements) can pass `e164`.
   */
  lemma E164NeedsStringOrArray(lib: ValidatorLib, v: Value)
    requires !v.Str? && !v.List?
    ensures !Holds(lib, E164Type, v)
  {
    if v.Num? {
      var d := DecimalDigits(if v.n < 0 then -v.n else v.n);
      assert ToString(v)[0] == '-' || ToString(v)[0] == d[0];
    }
  }
}

=== FILE: validate.dfy ===
/**
 * The validation engine of lib/validate.js, as functions: `validateField`
 * checks one value against one field spec, `validateObject` walks the declared
 * fields of a spec, recursing into container fields (`fields`) and into the
 * elements of object arrays (`validateObjectArray`), and collects a result map
 * and an error map keyed by field name.
 *
 * The source reports through callbacks; every callback here fires before its
 * caller returns (the fetch collaborator answers at once too), so each call is
 * a function from its inputs to an outcome. Where the source throws (`split` of
 * a non-string, `assert.object` of a non-object, a fetch method that does not
 * exist) the outcome is an explicit `Threw`, which propagates to the top the
 * way the exception does.
 */
module Validate {
  import opened Values
  import opened Types
  import opened Parsers
  import Strings
  import MockModel

  /** The rules for one field. `check` is the spec's `type`, used by leaf fields. */
  datatype FieldSpec = FieldSpec(
    required: bool,
    notNull: bool,
    delimiter: Option<string>,
    parser: Option<Parser>,
    check: TypeCheck,
    ensureArray: bool,
    modelFetch: Option<MockModel.Store>,
    many: bool,
    fetchFunction: Option<string>,
    mustExist: bool,
    validateObjectArray: bool,
    objectFields: Option<Spec>,
    fields: Option<Spec>)

  /**
   * A spec: its field names in declaration order (the order `Object.keys`
   * gives) with their rules. A container field's own spec object is the spec
   * of the nested object, so its `failOnUnknownFields` sits here too.
   */
  datatype Spec = Spec(fields: seq<(string, FieldSpec)>, failOnUnknownFields: bool)

  /**
   * What the source throws instead of reporting, plus `MapOfNonArray`: the
   * model's own stop for an object array that is not an array, where the
   * source would hand the value to `async.map` and not throw.
   */
  datatype Crash =
    | SplitOfNonString(badValue: Value)   // `liveValue.split` is not a function
    | NotAnObject(badValue: Value)        // `assert.object(obj)` fails
    | MissingObjectFields                 // `assert.object(spec)` with no `objectFields`
    | NoSuchFetchFunction(name: string)   // `modelFetch[functionName]` is undefined
    | ForEachOfNonArray(badValue: Value)  // `getMany` given a non-array
    | MapOfNonArray(badValue: Value)      // modelled stop: `validateObjectArray` on a non-array

  /** The error a field reports through its callback. */
  datatype FieldError =
    | RequiredMissing
    | NullNotAllowed
    | WrongType(badValue: Value)
    | ExpectedArray(badValue: Value)
    // `None`: the requested length was not a count. Where it was undefined the
    // source would throw at `requiredLength.toString()`; the mock store never
    // reaches that case
    | NotFound(expected: Option<nat>, got: nat)
    | FetchFailed(err: Value)                    // the collaborator's own error
    | Nested(cause: ObjectError)                 // from a nested `validateObject`

  /** The error `validateObject` reports: the per-field error map, or an unknown field. */
  datatype ObjectError =
    | Aggregate(errors: map<string, FieldError>)
    | UnknownField

  /** The outcome of `validateField`: `Passed(Undefined)` is success with no value. */
  datatype FieldOutcome =
    | Passed(parsed: Value)
    | Failed(error: FieldError)
    | FieldThrew(crash: Crash)

  /**
   * The outcome of `validateObject`. `Checked` carries the result map and the
   * error map; a non-empty error map is reported as an aggregate error with
   * the partial result beside it. `Rejected` is the unknown-field abort.
   */
  datatype ObjectOutcome =
    | Checked(result: map<string, Value>, errors: map<string, FieldError>)
    | Rejected
    | Threw(crash: Crash)

  /** A step that either yields a value or throws. */
  datatype Result<T> = Ok(value: T) | Thrown(crash: Crash)

  /** `exports.presence`: false for null and undefined. */
  predicate Presence(v: Value)
  {
    !(v.Null? || v.Undefined?)
  }

  /** The declared field names, in spec order. */
  function FieldNames(spec: Spec): seq<string>
  {
    seq(|spec.fields|, i requires 0 <= i < |spec.fields| => spec.fields[i].0)
  }

  predicate DistinctNames(spec: Spec)
  {
    forall i, j :: 0 <= i < j < |spec.fields| ==> spec.fields[i].0 != spec.fields[j].0
  }

  /** Strings as string values, in order. */
  function StrValues(parts: seq<string>): (vs: seq<Value>)
    ensures |vs| == |parts| && forall i :: 0 <= i < |parts| ==> vs[i] == Str(parts[i])
  {
    seq(|parts|, i requires 0 <= i < |parts| => Str(parts[i]))
  }

  /** The pieces of a delimited string, as string values. */
  function Pieces(s: string, d: string): seq<Value>
  {
    StrValues(Strings.Split(s, d))
  }

  /** `liveValue.map(field.parser)`. */
  function ParseEach(p: Parser, items: seq<Value>): seq<Value>
  {
    seq(|items|, i requires 0 <= i < |items| => Apply(p, items[i]))
  }

  /** The delimiter split and the parser: the live value the type stage sees. */
  function Prepared(value: Value, field: FieldSpec): Result<Value>
  {
    if field.delimiter.Some? && !value.Str? then Thrown(SplitOfNonString(value))
    else
      var split := if field.delimiter.Some? then List(Pieces(value.s, field.delimiter.value)) else value;
      match field.parser
      case None => Ok(split)
      case Some(p) => Ok(if field.delimiter.Some? then List(ParseEach(p, split.items)) else Apply(p, split))
  }

  /** The index of the first element that fails the check, if any. */
  function FirstFailing(lib: ValidatorLib, t: TypeCheck, items: seq<Value>): (k: Option<nat>)
    ensures k.Some? ==> k.value < |items| && !Holds(lib, t, items[k.value])
    ensures k.Some? ==> forall j :: 0 <= j < k.value ==> Holds(lib, t, items[j])
    ensures k.None? <==> forall j :: 0 <= j < |items| ==> Holds(lib, t, items[j])
  {
    if items == [] then None
    else if !Holds(lib, t, items[0]) then Some(0)
    else match FirstFailing(lib, t, items[1..])
      case None => None
      case Some(k) => Some(k + 1)
  }

  /** The type stage: every element of an array, or the value itself. */
  function TypeStage(lib: ValidatorLib, field: FieldSpec, live: Value): Option<FieldError>
  {
    if live.List? then
      match FirstFailing(lib, field.check, live.items)
      case Some(k) => Some(WrongType(live.items[k]))
      case None => None
    else if field.ensureArray then Some(ExpectedArray(live))
    else if !Holds(lib, field.check, live) then Some(WrongType(live))
    else None
  }

  /** A delimiter or `many: true` asks for several records. */
  predicate Plural(field: FieldSpec)
  {
    field.delimiter.Some? || field.many
  }

  /** The collaborator method to call: `fetchFunction` overrides `get`/`getMany`. */
  function FetchFunctionName(field: FieldSpec): string
  {
    match field.fetchFunction
    case Some(name) => name
    case None => if Plural(field) then "getMany" else "get"
  }

  /**
   * `liveValue.length`: the element count of an array, the character count of
   * a string, and an object's own `length` property when that is a count.
   * `None` stands for every other value of `length`.
   */
  function LengthOf(v: Value): (len: Option<nat>)
    ensures v.List? ==> len == Some(|v.items|)
    ensures v.Obj? && "length" in v.props && v.props["length"].Num? && v.props["length"].n >= 0 ==>
      len == Some(v.props["length"].n)
    ensures len.Some? ==> v.List? || v.Str? || v.Obj?
  {
    match v
    case List(items) => Some(|items|)
    case Str(s) => Some(|s|)
    case Obj(props) =>
      if "length" in props && props["length"].Num? && props["length"].n >= 0 then Some(props["length"].n)
      else None
    case _ => None
  }

  /** The number of records `mustExist` asks for. */
  function RequiredLength(field: FieldSpec, live: Value): Option<nat>
  {
    if Plural(field) then LengthOf(live) else Some(1)
  }

  /** The `mustExist` check on the collaborator's results. */
  function MissingRecords(required: Option<nat>, results: Value): Option<FieldError>
  {
    if results.List? && required != Some(|results.items|) then Some(NotFound(required, |results.items|))
    else if required == Some(1) && !results.List? && !Presence(results) then Some(NotFound(Some(1), 0))
    else None
  }

  /** `modelFetch[name].call(modelFetch, liveValue, cb)` on the mock store. */
  function CallFetch(store: MockModel.Store, name: string, live: Value): Result<MockModel.Reply>
  {
    if name == "get" then Ok(MockModel.Get(store, live))
    else if name == "getMany" then
      if live.List? then Ok(MockModel.Reply(None, List(MockModel.KnownRecords(store, live.items))))
      else Thrown(ForEachOfNonArray(live))
    else Thrown(NoSuchFetchFunction(name))
  }

  /** The model-fetch step: the `mustExist` count check, then the collaborator's `(err, results)`. */
  function FetchResult(field: FieldSpec, live: Value): FieldOutcome
    requires field.modelFetch.Some?
  {
    match CallFetch(field.modelFetch.value, FetchFunctionName(field), live)
    case Thrown(c) => FieldThrew(c)
    case Ok(reply) =>
      var missing := if field.mustExist then MissingRecords(RequiredLength(field, live), reply.results) else None;
      if missing.Some? then Failed(missing.value)
      else if reply.err.Some? then Failed(FetchFailed(reply.err.value))
      else Passed(reply.results)
  }

  /** A nested `validateObject` seen from its caller's callback: `(err, parsedValue)`. */
  function AsField(o: ObjectOutcome): FieldOutcome
  {
    match o
    case Checked(result, errors) =>
      if errors == map[] then Passed(Obj(result)) else Failed(Nested(Aggregate(errors)))
    case Rejected => Failed(Nested(UnknownField))
    case Threw(c) => FieldThrew(c)
  }

  /** The outcome of the elements of an object array, taken in order. */
  datatype ElementsOutcome =
    | AllPassed(results: seq<Value>)
    | FirstFailed(error: FieldError)
    | ElementThrew(crash: Crash)

  /** One element of an object array, validated against `objectFields`. */
  function ElementResult(lib: ValidatorLib, item: Value, field: FieldSpec): FieldOutcome
    decreases field, 0
  {
    if !item.Obj? then FieldThrew(NotAnObject(item))
    else if field.objectFields.None? then FieldThrew(MissingObjectFields)
    else AsField(ObjectResult(lib, item.props, field.objectFields.value))
  }

  /**
   * The first `n` elements: every element is validated (a later one can still
   * throw), and the first element error is the one that is kept.
   */
  function ElementsUpTo(lib: ValidatorLib, items: seq<Value>, field: FieldSpec, n: nat): ElementsOutcome
    requires n <= |items|
    decreases field, 1, n
  {
    if n == 0 then AllPassed([])
    else
      var acc := ElementsUpTo(lib, items, field, n - 1);
      if acc.ElementThrew? then acc
      else match ElementResult(lib, items[n - 1], field)
        case FieldThrew(c) => ElementThrew(c)
        case Failed(e) => if acc.FirstFailed? then acc else FirstFailed(e)
        case Passed(v) => if acc.FirstFailed? then acc else AllPassed(acc.results + [v])
  }

  /** The `validateObjectArray` step (`async.map` over the live value). */
  function ObjectArrayResult(lib: ValidatorLib, field: FieldSpec, live: Value): FieldOutcome
    decreases field, 1
  {
    if !live.List? then FieldThrew(MapOfNonArray(live))
    else match ElementsUpTo(lib, live.items, field, |live.items|)
      case AllPassed(results) => Passed(List(results))
      case FirstFailed(e) => Failed(e)
      case ElementThrew(c) => FieldThrew(c)
  }

  /** `validateField(value, field, callback)`. */
  function FieldResult(lib: ValidatorLib, value: Value, field: FieldSpec): FieldOutcome
    decreases field, 2
  {
    if value.Undefined? then
      if field.required then Failed(RequiredMissing) else Passed(Undefined)
    else if value.Null? then
      if field.notNull then Failed(NullNotAllowed) else Passed(Null)
    else match Prepared(value, field)
      case Thrown(c) => FieldThrew(c)
      case Ok(live) =>
        match TypeStage(lib, field, live)
        case Some(e) => Failed(e)
        case None =>
          if field.modelFetch.Some? then FetchResult(field, live)
          else if field.validateObjectArray then ObjectArrayResult(lib, field, live)
          else Passed(live)
  }

  /** A container field: its own required/null checks, then the nested object. */
  function ContainerResult(lib: ValidatorLib, value: Value, field: FieldSpec): FieldOutcome
    requires field.fields.Some?
    decreases field, 2
  {
    if value.Undefined? && field.required then Failed(RequiredMissing)
    else if value.Null? && field.notNull then Failed(NullNotAllowed)
    else if value.Undefined? then Passed(Undefined)
    else if !value.Obj? then FieldThrew(NotAnObject(value))
    else AsField(ObjectResult(lib, value.props, field.fields.value))
  }

  /** One declared field: a container recursion or a leaf `validateField`. */
  function FieldOutcomeOf(lib: ValidatorLib, value: Value, field: FieldSpec): FieldOutcome
    decreases field, 3
  {
    if field.fields.Some? then ContainerResult(lib, value, field) else FieldResult(lib, value, field)
  }

  /** The outcome of the `i`-th declared field of `spec` on `obj`. */
  function FieldAt(lib: ValidatorLib, obj: map<string, Value>, spec: Spec, i: nat): FieldOutcome
    requires i < |spec.fields|
    decreases spec, 0
  {
    FieldOutcomeOf(lib, Lookup(obj, spec.fields[i].0), spec.fields[i].1)
  }

  /** A field's callback: an error goes to the error map, a defined value to the result map. */
  function Record(result: map<string, Value>, errors: map<string, FieldError>, name: string, fo: FieldOutcome): ObjectOutcome
  {
    match fo
    case FieldThrew(c) => Threw(c)
    case Failed(e) => Checked(result, errors[name := e])
    case Passed(v) => if v.Undefined? then Checked(result, errors) else Checked(result[name := v], errors)
  }

  /** The outcome of every declared field of `spec` on `obj`, in spec order. */
  function FieldOutcomes(lib: ValidatorLib, obj: map<string, Value>, spec: Spec): seq<FieldOutcome>
    decreases spec, 1
  {
    seq(|spec.fields|, i requires 0 <= i < |spec.fields| => FieldAt(lib, obj, spec, i))
  }

  /**
   * The field callbacks of the first `n` fields, in order, starting from an
   * empty result map and an empty error map; a crash ends the pass.
   */
  function Collect(names: seq<string>, outcomes: seq<FieldOutcome>, n: nat): ObjectOutcome
    requires n <= |names| == |outcomes|
  {
    if n == 0 then Checked(map[], map[])
    else match Collect(names, outcomes, n - 1)
      case Checked(result, errors) => Record(result, errors, names[n - 1], outcomes[n - 1])
      case other => other
  }

  /** Some key of the input is not a declared field name. */
  predicate HasUnknownKey(obj: map<string, Value>, spec: Spec)
  {
    exists key :: key in obj && key !in FieldNames(spec)
  }

  /** `validateObject(obj, spec, callback)`. */
  function ObjectResult(lib: ValidatorLib, obj: map<string, Value>, spec: Spec): ObjectOutcome
    decreases spec, 2
  {
    if spec.failOnUnknownFields && HasUnknownKey(obj, spec) then Rejected
    else Collect(FieldNames(spec), FieldOutcomes(lib, obj, spec), |spec.fields|)
  }

  /** The error argument of `validateObject`'s callback. */
  function ErrorOf(o: ObjectOutcome): Option<ObjectError>
    requires !o.Threw?
  {
    match o
    case Checked(_, errors) => if errors == map[] then None else Some(Aggregate(errors))
    case Rejected => Some(UnknownField)
  }
}

=== FILE: validate_impl.dfy ===
/**
 * The validation engine of lib/validate.js as the source runs it: the live
 * value reassigned step by step, the early-exit scan of an array's elements,
 * and the loops that fill the result and error maps. Each method returns
 * exactly what the matching function of module Validate specifies.
 */
module ValidateImpl {
  import opened Values
  import opened Types
  import opened Parsers
  import opened Validate
  import ValidateLemmas
  import MockModel

  /** `validateField(value, field, callback)`. */
  method ValidateField(lib: ValidatorLib, value: Value, field: FieldSpec) returns (outcome: FieldOutcome)
    ensures outcome == FieldResult(lib, value, field)
    decreases field, 2
  {
    if value.Undefined? {
      if field.required {
        return Failed(RequiredMissing);
      }
      return Passed(Undefined);
    }
    if value.Null? {
      if field.notNull {
        return Failed(NullNotAllowed);
      }
      return Passed(Null);
    }
    var prepared := Prepare(value, field);
    if prepared.Thrown? {
      return FieldThrew(prepared.crash);
    }
    var liveValue := prepared.value;
    var typeError := CheckType(lib, field, liveValue);
    if typeError.Some? {
      return Failed(typeError.value);
    }
    if field.modelFetch.Some? {
      outcome := Fetch(field, liveValue);
    } else if field.validateObjectArray {
      outcome := ValidateObjectArray(lib, field, liveValue);
    } else {
      outcome := Passed(liveValue);
    }
  }

  /** The delimiter split and the parser, reassigning the live value. */
  method Prepare(value: Value, field: FieldSpec) returns (r: Result<Value>)
    ensures r == Prepared(value, field)
  {
    var liveValue := value;
    if field.delimiter.Some? {
      if !liveValue.Str? {
        return Thrown(SplitOfNonString(liveValue));
      }
      liveValue := List(Pieces(liveValue.s, field.delimiter.value));
    }
    if field.parser.Some? {
      if field.delimiter.Some? {
        liveValue := List(ParseEach(field.parser.value, liveValue.items));
      } else {
        liveValue := Apply(field.parser.value, liveValue);
      }
    }
    return Ok(liveValue);
  }

  /** The type stage: the scan that stops at the first element of the wrong type. */
  method CheckType(lib: ValidatorLib, field: FieldSpec, liveValue: Value) returns (error: Option<FieldError>)
    ensures error == TypeStage(lib, field, liveValue)
  {
    if liveValue.List? {
      var items := liveValue.items;
      for i := 0 to |items|
        invariant forall j :: 0 <= j < i ==> Holds(lib, field.check, items[j])
      {
        if !Holds(lib, field.check, items[i]) {
          assert FirstFailing(lib, field.check, items) == Some(i);
          return Some(WrongType(items[i]));
        }
      }
      return None;
    } else if field.ensureArray {
      return Some(ExpectedArray(liveValue));
    } else if !Holds(lib, field.check, liveValue) {
      return Some(WrongType(liveValue));
    }
    return None;
  }

  /** The model-fetch step of `validateField`, calling the mock store. */
  method Fetch(field: FieldSpec, liveValue: Value) returns (outcome: FieldOutcome)
    requires field.modelFetch.Some?
    ensures outcome == FetchResult(field, liveValue)
  {
    var store := field.modelFetch.value;
    var functionName := "get";
    if field.delimiter.Some? || field.many {
      functionName := "getMany";
    }
    if field.fetchFunction.Some? {
      functionName := field.fetchFunction.value;
    }
    var reply: MockModel.Reply;
    if functionName == "get" {
      reply := MockModel.Get(store, liveValue);
    } else if functionName == "getMany" {
      if !liveValue.List? {
        return FieldThrew(ForEachOfNonArray(liveValue));
      }
      reply := MockModel.GetMany(store, liveValue.items);
    } else {
      return FieldThrew(NoSuchFetchFunction(functionName));
    }
    if field.mustExist {
      var requiredLength: Option<nat> := Some(1);
      if field.delimiter.Some? || field.many {
        requiredLength := LengthOf(liveValue);
      }
      if reply.results.List? && requiredLength != Some(|reply.results.items|) {
        return Failed(NotFound(requiredLength, |reply.results.items|));
      }
      if requiredLength == Some(1) && !reply.results.List? && !Presence(reply.results) {
        return Failed(NotFound(Some(1), 0));
      }
    }
    if reply.err.Some? {
      return Failed(FetchFailed(reply.err.value));
    }
    return Passed(reply.results);
  }

  /** The `validateObjectArray` step: each element validated as an object against `objectFields`. */
  method ValidateObjectArray(lib: ValidatorLib, field: FieldSpec, liveValue: Value) returns (outcome: FieldOutcome)
    ensures outcome == ObjectArrayResult(lib, field, liveValue)
    decreases field, 1
  {
    if !liveValue.List? {
      return FieldThrew(MapOfNonArray(liveValue));
    }
    var items := liveValue.items;
    var results: seq<Value> := [];
    var firstError: Option<FieldError> := None;
    for i := 0 to |items|
      invariant ElementsUpTo(lib, items, field, i)
        == if firstError.Some? then FirstFailed(firstError.value) else AllPassed(results)
    {
      var item := items[i];
      var itemOutcome: FieldOutcome;
      if !item.Obj? {
        itemOutcome := FieldThrew(NotAnObject(item));
      } else if field.objectFields.None? {
        itemOutcome := FieldThrew(MissingObjectFields);
      } else {
        var nested := ValidateObject(lib, item.props, field.objectFields.value);
        itemOutcome := AsField(nested);
      }
      assert itemOutcome == ElementResult(lib, item, field);
      match itemOutcome {
        case FieldThrew(c) =>
          ValidateLemmas.ElementsThrewSticks(lib, items, field, i + 1, |items|);
          return FieldThrew(c);
        case Failed(e) =>
          if firstError.None? {
            firstError := Some(e);
          }
        case Passed(v) =>
          if firstError.None? {
            results := results + [v];
          }
      }
    }
    if firstError.Some? {
      outcome := Failed(firstError.value);
    } else {
      outcome := Passed(List(results));
    }
  }

  /** `validateObject(obj, spec, callback)`: the unknown-key pass, then the field pass. */
  method ValidateObject(lib: ValidatorLib, obj: map<string, Value>, spec: Spec) returns (outcome: ObjectOutcome)
    ensures outcome == ObjectResult(lib, obj, spec)
    decreases spec, 2
  {
    var validFieldNames := FieldNames(spec);
    if spec.failOnUnknownFields {
      var keys := obj.Keys;
      while keys != {}
        invariant keys <= obj.Keys
        invariant forall key :: key in obj && key !in keys ==> key in validFieldNames
        decreases keys
      {
        var key :| key in keys;
        if key !in validFieldNames {
          return Rejected;
        }
        keys := keys - {key};
      }
    }
    ghost var outcomes := FieldOutcomes(lib, obj, spec);
    var resultObj: map<string, Value> := map[];
    var errorObj: map<string, FieldError> := map[];
    for i := 0 to |spec.fields|
      invariant Collect(validFieldNames, outcomes, i) == Checked(resultObj, errorObj)
    {
      var fieldName := spec.fields[i].0;
      var fieldSpec := spec.fields[i].1;
      var value := Lookup(obj, fieldName);
      var fieldOutcome: FieldOutcome;
      if fieldSpec.fields.Some? {
        if value.Undefined? && fieldSpec.required {
          fieldOutcome := Failed(RequiredMissing);
        } else if value.Null? && fieldSpec.notNull {
          fieldOutcome := Failed(NullNotAllowed);
        } else if value.Undefined? {
          fieldOutcome := Passed(Undefined);
        } else if !value.Obj? {
          fieldOutcome := FieldThrew(NotAnObject(value));
        } else {
          var nested := ValidateObject(lib, value.props, fieldSpec.fields.value);
          fieldOutcome := AsField(nested);
        }
        assert fieldOutcome == ContainerResult(lib, value, fieldSpec);
      } else {
        fieldOutcome := ValidateField(lib, value, fieldSpec);
      }
      assert fieldOutcome == FieldOutcomeOf(lib, value, fieldSpec);
      assert fieldOutcome == FieldAt(lib, obj, spec, i);
      assert fieldOutcome == outcomes[i];
      match fieldOutcome {
        case FieldThrew(c) =>
          ValidateLemmas.CollectThrewSticks(validFieldNames, outcomes, i + 1, |spec.fields|);
          return Threw(c);
        case Failed(e) =>
          errorObj := errorObj[fieldName := e];
        case Passed(v) =>
          if !v.Undefined? {
            resultObj := resultObj[fieldName := v];
          }
      }
    }
    outcome := Checked(resultObj, errorObj);
  }
}

=== FILE: validate_lemmas.dfy ===
/**
 * Properties of the validation engine (module Validate): the order of the
 * steps in `validateField`, the type stage, the model-fetch step, object
 * arrays, container fields, the aggregation of results and errors, and the
 * handling of undeclared input keys.
 */
module ValidateLemmas {
  import opened Values
  import opened Types
  import opened Parsers
  import opened Validate
  import Strings
  import MockModel

  /** Once a field throws, the field pass stays thrown: no later field is recorded. */
  lemma {:induction false} CollectThrewSticks(names: seq<string>, outcomes: seq<FieldOutcome>, i: nat, n: nat)
    requires i <= n <= |names| == |outcomes|
    requires Collect(names, outcomes, i).Threw?
    ensures Collect(names, outcomes, n) == Collect(names, outcomes, i)
    decreases n
  {
    if n > i {
      CollectThrewSticks(names, outcomes, i, n - 1);
    }
  }

  /** Once an element throws, the whole object array throws. */
  lemma {:induction false} ElementsThrewSticks(lib: ValidatorLib, items: seq<Value>, field: FieldSpec, i: nat, n: nat)
    requires i <= n <= |items|
    requires ElementsUpTo(lib, items, field, i).ElementThrew?
    ensures ElementsUpTo(lib, items, field, n) == ElementsUpTo(lib, items, field, i)
    decreases n
  {
    if n > i {
      ElementsThrewSticks(lib, items, field, i, n - 1);
    }
  }

  /**
   * Absence and null are decided before anything else: a missing value fails
   * a required field with `RequiredMissing` and otherwise passes as undefined
   * (so it is left out of the result), a null one fails a `notNull` field with
   * `NullNotAllowed` and otherwise passes as null; neither ever reaches the
   * split, the parser, the type check or the fetch.
   */
  lemma AbsentAndNullFirst(lib: ValidatorLib, field: FieldSpec, other: FieldSpec)
    requires other.required == field.required && other.notNull == field.notNull
    ensures FieldResult(lib, Undefined, field) == FieldResult(lib, Undefined, other)
    ensures FieldResult(lib, Null, field) == FieldResult(lib, Null, other)
    ensures FieldResult(lib, Undefined, field) ==
      if field.required then Failed(RequiredMissing) else Passed(Undefined)
    ensures FieldResult(lib, Null, field) ==
      if field.notNull then Failed(NullNotAllowed) else Passed(Null)
    ensures !FieldResult(lib, Undefined, field).FieldThrew? && !FieldResult(lib, Null, field).FieldThrew?
  {
  }

  /**
   * `presence` picks out exactly the values that get past the first two
   * checks of `validateField`: a present value is never refused as missing or
   * null, whatever the field, and a field that is both `required` and
   * `notNull` refuses every value that is not present.
   */
  lemma PresenceGuardsFieldResult(lib: ValidatorLib, v: Value, field: FieldSpec)
    ensures Presence(v) ==>
      FieldResult(lib, v, field) != Failed(RequiredMissing) && FieldResult(lib, v, field) != Failed(NullNotAllowed)
    ensures !Presence(v) && field.required && field.notNull ==>
      FieldResult(lib, v, field) == Failed(if v.Undefined? then RequiredMissing else NullNotAllowed)
  {
    if Presence(v) {
      match Prepared(v, field)
      case Thrown(_) =>
      case Ok(live) =>
        TypeStageVerdict(lib, field, live);
        if TypeStage(lib, field, live).None? && field.modelFetch.None? && field.validateObjectArray && live.List? {
          var items := live.items;
          ElementsShape(lib, items, field, |items|);
          if ElementsUpTo(lib, items, field, |items|).FirstFailed? {
            var k :| 0 <= k < |items| && ElementResult(lib, items[k], field) == Failed(ElementsUpTo(lib, items, field, |items|).error);
            assert ElementResult(lib, items[k], field).error.Nested?;
          }
        }
    }
  }

  /** The string values of a sequence of string values. */
  function StringsOf(items: seq<Value>): (parts: seq<string>)
    requires forall i :: 0 <= i < |items| ==> items[i].Str?
    ensures |parts| == |items| && forall i :: 0 <= i < |items| ==> items[i] == Str(parts[i])
  {
    seq(|items|, i requires 0 <= i < |items| => items[i].s)
  }

  /**
   * A delimiter turns a string into the array of its pieces, which rejoined
   * with the delimiter give the string back; a one-character delimiter gives
   * one piece more than it has occurrences, and no piece contains it. A value
   * that is not a string cannot be split.
   */
  lemma DelimiterSplits(value: Value, field: FieldSpec)
    requires field.delimiter.Some? && field.parser.None?
    ensures !value.Str? ==> Prepared(value, field) == Thrown(SplitOfNonString(value))
    ensures value.Str? ==>
      var r := Prepared(value, field);
      var d := field.delimiter.value;
      r.Ok? && r.value.List?
      && (forall i :: 0 <= i < |r.value.items| ==> r.value.items[i].Str?)
      && Strings.Join(StringsOf(r.value.items), d) == value.s
      && (|d| == 1 ==> |r.value.items| == Strings.Occurrences(value.s, d[0]) + 1
                       && forall i :: 0 <= i < |r.value.items| ==> d[0] !in r.value.items[i].s)
  {
    if value.Str? {
      var d := field.delimiter.value;
      var items := Pieces(value.s, d);
      assert Prepared(value, field) == Ok(List(items));
      assert StringsOf(items) == Strings.Split(value.s, d);
      Strings.JoinSplit(value.s, d);
      if |d| == 1 {
        assert d == [d[0]];
        Strings.SplitOnCount(value.s, d[0]);
        Strings.SplitOnPiecesFree(value.s, d[0]);
      }
    }
  }

  /**
   * The parser sees each piece of a delimited string, or the whole value when
   * there is no delimiter.
   */
  lemma ParserPerPiece(value: Value, field: FieldSpec)
    requires field.parser.Some? && Presence(value)
    ensures field.delimiter.None? ==> Prepared(value, field) == Ok(Apply(field.parser.value, value))
    ensures field.delimiter.Some? && value.Str? ==>
      var parts := Strings.Split(value.s, field.delimiter.value);
      var r := Prepared(value, field);
      r.Ok? && r.value.List? && |r.value.items| == |parts|
      && forall i :: 0 <= i < |parts| ==> r.value.items[i] == Apply(field.parser.value, Str(parts[i]))
  {
  }

  /**
   * The type stage on an array reports the first element that fails the
   * check and passes when every element does; `ensureArray` rejects any other
   * value whatever the check; otherwise the value itself is checked.
   */
  lemma TypeStageVerdict(lib: ValidatorLib, field: FieldSpec, live: Value)
    ensures live.List? ==>
      (TypeStage(lib, field, live).None? <==> forall j :: 0 <= j < |live.items| ==> Holds(lib, field.check, live.items[j]))
    ensures live.List? ==>
      forall k :: (0 <= k < |live.items| && !Holds(lib, field.check, live.items[k])
                   && forall j :: 0 <= j < k ==> Holds(lib, field.check, live.items[j]))
                  ==> TypeStage(lib, field, live) == Some(WrongType(live.items[k]))
    ensures !live.List? && field.ensureArray ==> TypeStage(lib, field, live) == Some(ExpectedArray(live))
    ensures !live.List? && !field.ensureArray ==>
      TypeStage(lib, field, live) == if Holds(lib, field.check, live) then None else Some(WrongType(live))
  {
    if live.List? {
      forall k | 0 <= k < |live.items| && !Holds(lib, field.check, live.items[k])
        && (forall j :: 0 <= j < k ==> Holds(lib, field.check, live.items[j]))
        ensures TypeStage(lib, field, live) == Some(WrongType(live.items[k]))
      {
        var f := FirstFailing(lib, field.check, live.items);
        assert f.Some? && f.value == k;
      }
    }
  }

  /**
   * The fetch and the object-array step only run on a value that passed the
   * type stage: a failing value is reported as the type error whatever the
   * field says about fetching. A passing value goes to the fetch when there
   * is one, else to the object-array step when asked, else through unchanged.
   */
  lemma StepsAfterTypeStage(lib: ValidatorLib, value: Value, field: FieldSpec, live: Value)
    requires Presence(value) && Prepared(value, field) == Ok(live)
    ensures TypeStage(lib, field, live).Some? ==>
      && FieldResult(lib, value, field) == Failed(TypeStage(lib, field, live).value)
      && forall store :: FieldResult(lib, value, field.(modelFetch := store)) == FieldResult(lib, value, field)
    ensures TypeStage(lib, field, live).None? ==>
      FieldResult(lib, value, field) ==
        if field.modelFetch.Some? then FetchResult(field, live)
        else if field.validateObjectArray then ObjectArrayResult(lib, field, live)
        else Passed(live)
  {
    forall store ensures TypeStage(lib, field, live).Some? ==>
      FieldResult(lib, value, field.(modelFetch := store)) == FieldResult(lib, value, field)
    {
      var f := field.(modelFetch := store);
      assert Prepared(value, f) == Prepared(value, field);
      assert TypeStage(lib, f, live) == TypeStage(lib, field, live);
    }
  }

  /**
   * `getMany` on the mock store (a delimiter or `many`, no override): an array
   * of ids yields the records of the known ones; with `mustExist`, a single
   * unknown id fails the field with the requested and the found counts, and
   * fewer were found than requested. A value that is not an array throws.
   */
  lemma FetchMany(field: FieldSpec, live: Value)
    requires field.modelFetch.Some? && field.fetchFunction.None? && Plural(field)
    ensures !live.List? ==> FetchResult(field, live) == FieldThrew(ForEachOfNonArray(live))
    ensures live.List? ==>
      var store := field.modelFetch.value;
      var known := MockModel.KnownRecords(store, live.items);
      FetchResult(field, live) ==
        if field.mustExist && exists i :: 0 <= i < |live.items| && !MockModel.Known(store, live.items[i])
        then Failed(NotFound(Some(|live.items|), |known|))
        else Passed(List(known))
    ensures FetchResult(field, live).Failed? ==>
      live.List? && FetchResult(field, live).error.got < |live.items|
  {
    if live.List? {
      MockModel.KnownRecordsCount(field.modelFetch.value, live.items);
    }
  }

  /**
   * `get` on the mock store (no delimiter, no `many`, no override): a known id
   * yields its record; an unknown one yields null, which `mustExist` reports
   * as one record requested and none found.
   */
  lemma FetchOne(field: FieldSpec, live: Value)
    requires field.modelFetch.Some? && field.fetchFunction.None? && !Plural(field)
    ensures var store := field.modelFetch.value;
      FetchResult(field, live) ==
        if MockModel.Known(store, live) then Passed(MockModel.RecordFor(live))
        else if field.mustExist then Failed(NotFound(Some(1), 0))
        else Passed(Null)
  {
  }

  /** A `fetchFunction` the store does not have throws, whatever the value. */
  lemma FetchUnknownFunction(field: FieldSpec, live: Value, name: string)
    requires field.modelFetch.Some? && field.fetchFunction == Some(name)
    requires name != "get" && name != "getMany"
    ensures FetchResult(field, live) == FieldThrew(NoSuchFetchFunction(name))
  {
  }

  /**
   * `fetchFunction` overrides the choice between `get` and `getMany`: the
   * store method it names is called whatever `delimiter` and `many` say, and
   * they only decide how many records `mustExist` asks for.
   */
  lemma FetchFunctionOverrides(field: FieldSpec, live: Value, d: Option<string>, m: bool)
    requires field.modelFetch.Some? && field.fetchFunction.Some?
    ensures var other := field.(delimiter := d, many := m);
      FetchFunctionName(other) == FetchFunctionName(field)
      && (!field.mustExist ==> FetchResult(other, live) == FetchResult(field, live))
      && (field.mustExist && Plural(other) == Plural(field) ==> FetchResult(other, live) == FetchResult(field, live))
    ensures field.fetchFunction == Some("get") && !field.mustExist ==>
      FetchResult(field, live) == Passed(MockModel.Get(field.modelFetch.value, live).results)
  {
  }

  /**
   * On a plural field an object's own `length` is the count `mustExist` asks
   * for: with `fetchFunction` set to `get`, the value `{length: 1}` is no id
   * the store knows, so one requested record is reported missing.
   */
  lemma ObjectLengthCounts(field: FieldSpec)
    requires field.modelFetch == Some(MockModel.Mock) && field.fetchFunction == Some("get")
    requires field.mustExist && Plural(field)
    ensures FetchResult(field, Obj(map["length" := Num(1)])) == Failed(NotFound(Some(1), 0))
  {
    assert LengthOf(Obj(map["length" := Num(1)])) == Some(1);
  }

  /** The field spec of the model-fetch example: a comma-delimited list of version 4 UUIDs that must exist. */
  function UuidListSpec(): FieldSpec
  {
    FieldSpec(true, true, Some(","), None, UuidType, false, Some(MockModel.Mock), false, None, true, false, None, None)
  }

  /**
   * The model-fetch field on a comma-joined list of ids that pass the UUID
   * check: the records of the known ids when all are known, otherwise the
   * number requested against the number found.
   */
  lemma UuidList(lib: ValidatorLib, parts: seq<string>)
    requires |parts| >= 1
    requires forall i :: 0 <= i < |parts| ==> ',' !in parts[i] && lib.isUUID4(parts[i])
    ensures var known := MockModel.KnownRecords(MockModel.Mock, StrValues(parts));
      FieldResult(lib, Str(Strings.Join(parts, ",")), UuidListSpec()) ==
        if forall i :: 0 <= i < |parts| ==> parts[i] in MockModel.Mock.validIds
        then Passed(List(known))
        else Failed(NotFound(Some(|parts|), |known|))
  {
    var field := UuidListSpec();
    var s := Strings.Join(parts, ",");
    var items := StrValues(parts);
    var live := List(items);
    assert Pieces(s, ",") == items by {
      Strings.SplitOnJoin(parts, ',');
    }
    assert Prepared(Str(s), field) == Ok(live);
    assert TypeStage(lib, field, live) == None by {
      assert forall j :: 0 <= j < |items| ==> Holds(lib, UuidType, items[j]);
      TypeStageVerdict(lib, field, live);
    }
    StepsAfterTypeStage(lib, Str(s), field, live);
    assert FieldResult(lib, Str(s), field) == FetchResult(field, live);
    FetchMany(field, live);
    assert (forall i :: 0 <= i < |parts| ==> parts[i] in MockModel.Mock.validIds)
       <==> !exists i :: 0 <= i < |items| && !MockModel.Known(MockModel.Mock, items[i]);
  }

  /** A single piece the UUID check rejects is a type error carrying the string; nothing is fetched. */
  lemma UuidListRejects(lib: ValidatorLib, s: string)
    requires ',' !in s && !lib.isUUID4(s)
    ensures FieldResult(lib, Str(s), UuidListSpec()) == Failed(WrongType(Str(s)))
  {
    Strings.SplitOnFree(s, ',');
    assert Pieces(s, ",") == [Str(s)];
  }

  /** The ids of the model-fetch example. */
  const KnownId := "0ba29cce-25f4-47ea-965c-78b075d6ba04"
  const OtherKnownId := "7f29afde-feea-457c-98f8-84c2697cdba2"
  const UnknownId := "ae7623e9-715b-4e0f-92ca-913d8f523eb1"
  const MisformedId := "ae7623e9-715b-4e0f-92ca-913d8f523eb1zzz"

  /** The model-fetch example, first case: a known id passes with its record; null is refused first. */
  lemma FetchExampleKnown(lib: ValidatorLib, id: string)
    requires id == KnownId && lib.isUUID4(id)
    ensures FieldResult(lib, Str(id), UuidListSpec()) == Passed(List([Obj(map["id" := Str(id), "name" := Str("something")])]))
    ensures FieldResult(lib, Null, UuidListSpec()) == Failed(NullNotAllowed)
  {
    assert ',' !in id;
    assert id in MockModel.Mock.validIds;
    UuidList(lib, [id]);
    assert Strings.Join([id], ",") == id;
    assert StrValues([id]) == [Str(id)];
    assert [Str(id)][..0] == [];
    assert MockModel.KnownRecords(MockModel.Mock, [Str(id)]) == [MockModel.RecordFor(Str(id))];
  }

  /** The model-fetch example, second case: an unknown id is one requested and none found. */
  lemma FetchExampleUnknown(lib: ValidatorLib, id: string)
    requires id == UnknownId && lib.isUUID4(id)
    ensures FieldResult(lib, Str(id), UuidListSpec()) == Failed(NotFound(Some(1), 0))
  {
    assert ',' !in id;
    assert id !in MockModel.Mock.validIds;
    UuidList(lib, [id]);
    assert StrValues([id]) == [Str(id)];
    assert [Str(id)][..0] == [];
  }

  /**
   * The model-fetch example, third case: an unknown and a known id, joined by
   * a comma, are two requested and one found.
   */
  lemma FetchExampleOneOfTwo(lib: ValidatorLib, bad: string, good: string)
    requires bad == UnknownId && good == OtherKnownId
    requires lib.isUUID4(bad) && lib.isUUID4(good)
    ensures FieldResult(lib, Str(bad + "," + good), UuidListSpec()) == Failed(NotFound(Some(2), 1))
  {
    assert ',' !in good && ',' !in bad;
    assert good in MockModel.Mock.validIds && bad !in MockModel.Mock.validIds;
    UuidList(lib, [bad, good]);
    assert StrValues([bad, good]) == [Str(bad), Str(good)];
    MockModel.OneOfTwoKnown(MockModel.Mock, Str(good), Str(bad));
    Strings.JoinCons(bad, [good], ",");
  }

  /** The model-fetch example, last case: a string the UUID check rejects is a type error carrying the string. */
  lemma FetchExampleMisformed(lib: ValidatorLib, id: string)
    requires id == MisformedId && !lib.isUUID4(id)
    ensures FieldResult(lib, Str(id), UuidListSpec()) == Failed(WrongType(Str(id)))
  {
    assert ',' !in id;
    UuidListRejects(lib, id);
  }

  /**
   * The elements of an object array, taken in order: they all pass, each
   * giving its validated object in place, exactly when no element fails or
   * throws; the array throws the first crash exactly when some element
   * throws; otherwise the error kept is that of the first failing element.
   */
  lemma {:induction false} ElementsShape(lib: ValidatorLib, items: seq<Value>, field: FieldSpec, n: nat)
    requires n <= |items|
    ensures var o := ElementsUpTo(lib, items, field, n);
      && (o.ElementThrew? <==> exists i :: 0 <= i < n && ElementResult(lib, items[i], field).FieldThrew?)
      && (o.ElementThrew? ==>
            exists k :: 0 <= k < n && ElementResult(lib, items[k], field) == FieldThrew(o.crash)
                        && forall j :: 0 <= j < k ==> !ElementResult(lib, items[j], field).FieldThrew?)
      && (o.AllPassed? <==> forall i :: 0 <= i < n ==> ElementResult(lib, items[i], field).Passed?)
      && (o.AllPassed? ==>
            |o.results| == n
            && forall i :: 0 <= i < n ==> ElementResult(lib, items[i], field) == Passed(o.results[i]))
      && (o.FirstFailed? ==>
            exists k :: 0 <= k < n && ElementResult(lib, items[k], field) == Failed(o.error)
                        && forall j :: 0 <= j < k ==> ElementResult(lib, items[j], field).Passed?)
    decreases n
  {
    if n > 0 {
      ElementsShape(lib, items, field, n - 1);
      var acc := ElementsUpTo(lib, items, field, n - 1);
      var last := ElementResult(lib, items[n - 1], field);
      var o := ElementsUpTo(lib, items, field, n);
      if acc.ElementThrew? {
        assert o == acc;
      } else if last.FieldThrew? {
        assert o == ElementThrew(last.crash);
        assert forall j :: 0 <= j < n - 1 ==> !ElementResult(lib, items[j], field).FieldThrew?;
      } else if acc.FirstFailed? {
        assert o == acc;
      } else if last.Failed? {
        assert o == FirstFailed(last.error);
        assert forall j :: 0 <= j < n - 1 ==> ElementResult(lib, items[j], field).Passed?;
      } else {
        assert o == AllPassed(acc.results + [last.parsed]);
      }
    }
  }

  /**
   * `validateObjectArray` on an array: the array of validated objects when
   * every element passes, the first element's error, or the first crash.
   */
  lemma ObjectArrayVerdict(lib: ValidatorLib, field: FieldSpec, items: seq<Value>)
    ensures var o := ObjectArrayResult(lib, field, List(items));
      && (o.Passed? <==> forall i :: 0 <= i < |items| ==> ElementResult(lib, items[i], field).Passed?)
      && (o.Passed? ==>
            o.parsed.List? && |o.parsed.items| == |items|
            && forall i :: 0 <= i < |items| ==> ElementResult(lib, items[i], field) == Passed(o.parsed.items[i]))
      && (o.FieldThrew? <==> exists i :: 0 <= i < |items| && ElementResult(lib, items[i], field).FieldThrew?)
      && (o.Failed? ==>
            exists k :: 0 <= k < |items| && ElementResult(lib, items[k], field) == Failed(o.error)
                        && forall j :: 0 <= j < k ==> ElementResult(lib, items[j], field).Passed?)
  {
    ElementsShape(lib, items, field, |items|);
  }

  /**
   * A container field: a missing required value and a null `notNull` value
   * fail without looking at the nested spec; a missing optional value passes
   * with no value, which adds nothing to either map; an object is validated
   * against the nested spec, whose errors become the field's error; any other
   * value (null included, when it is allowed) throws at the object assertion.
   */
  lemma ContainerCases(lib: ValidatorLib, value: Value, field: FieldSpec, other: Spec,
                       result: map<string, Value>, errors: map<string, FieldError>, name: string)
    requires field.fields.Some?
    ensures (value.Undefined? && field.required) || (value.Null? && field.notNull) || value.Undefined? ==>
      ContainerResult(lib, value, field) == ContainerResult(lib, value, field.(fields := Some(other)))
    ensures value.Undefined? ==>
      ContainerResult(lib, value, field) == if field.required then Failed(RequiredMissing) else Passed(Undefined)
    ensures value.Null? ==>
      ContainerResult(lib, value, field) == if field.notNull then Failed(NullNotAllowed) else FieldThrew(NotAnObject(Null))
    ensures value.Undefined? && !field.required ==>
      Record(result, errors, name, ContainerResult(lib, value, field)) == Checked(result, errors)
    ensures value.Obj? ==>
      var nested := ObjectResult(lib, value.props, field.fields.value);
      && (nested.Checked? && nested.errors != map[] ==>
            ContainerResult(lib, value, field) == Failed(Nested(Aggregate(nested.errors))))
      && (nested.Checked? && nested.errors == map[] ==>
            ContainerResult(lib, value, field) == Passed(Obj(nested.result)))
      && (nested.Rejected? ==> ContainerResult(lib, value, field) == Failed(Nested(UnknownField)))
    ensures !value.Obj? && !value.Undefined? && !value.Null? ==>
      ContainerResult(lib, value, field) == FieldThrew(NotAnObject(value))
  {
  }

  /**
   * What the callbacks of the first `n` fields have recorded: only their
   * names appear; a field's error is in the error map exactly when it failed;
   * its value is in the result map exactly when it passed with a defined value.
   */
  predicate Recorded(names: seq<string>, outcomes: seq<FieldOutcome>, n: nat,
                     result: map<string, Value>, errors: map<string, FieldError>)
    requires n <= |names| == |outcomes|
  {
    && (forall k :: k in result ==> k in names[..n])
    && (forall k :: k in errors ==> k in names[..n])
    && (forall i :: 0 <= i < n ==>
          && (names[i] in errors <==> outcomes[i].Failed?)
          && (names[i] in errors ==> errors[names[i]] == outcomes[i].error)
          && (names[i] in result <==> outcomes[i].Passed? && !outcomes[i].parsed.Undefined?)
          && (names[i] in result ==> result[names[i]] == outcomes[i].parsed))
  }

  /** Field `k` throws `c`, and no field before it throws. */
  predicate FirstThrowAt(outcomes: seq<FieldOutcome>, k: nat, c: Crash)
    requires k < |outcomes|
  {
    outcomes[k] == FieldThrew(c) && forall j :: 0 <= j < k ==> !outcomes[j].FieldThrew?
  }

  /**
   * The callbacks of the first `n` fields never abort, and they throw, with
   * the first crash, exactly when some field throws.
   */
  lemma {:induction false} CollectThrows(names: seq<string>, outcomes: seq<FieldOutcome>, n: nat)
    requires n <= |names| == |outcomes|
    ensures var o := Collect(names, outcomes, n);
      && !o.Rejected?
      && (o.Threw? <==> exists i :: 0 <= i < n && outcomes[i].FieldThrew?)
      && (o.Threw? ==> exists k :: 0 <= k < n && FirstThrowAt(outcomes, k, o.crash))
    decreases n
  {
    if n > 0 {
      CollectThrows(names, outcomes, n - 1);
      var acc := Collect(names, outcomes, n - 1);
      if !acc.Threw? && outcomes[n - 1].FieldThrew? {
        assert FirstThrowAt(outcomes, n - 1, outcomes[n - 1].crash);
      }
    }
  }

  /** One field callback keeps the record complete when its name is new. */
  lemma RecordStep(names: seq<string>, outcomes: seq<FieldOutcome>, n: nat,
                   result: map<string, Value>, errors: map<string, FieldError>)
    requires 0 < n <= |names| == |outcomes|
    requires names[n - 1] !in names[..n - 1]
    requires Recorded(names, outcomes, n - 1, result, errors)
    ensures var o := Record(result, errors, names[n - 1], outcomes[n - 1]);
      o.Checked? ==> Recorded(names, outcomes, n, o.result, o.errors)
  {
    var name := names[n - 1];
    var o := Record(result, errors, name, outcomes[n - 1]);
    assert names[..n] == names[..n - 1] + [name];
    if o.Checked? {
      forall i | 0 <= i < n - 1 ensures names[i] != name {
        assert names[i] == names[..n - 1][i];
      }
    }
  }

  /**
   * When the callbacks of the first `n` fields, whose names are distinct, do
   * not throw, they have recorded every field's outcome under its name.
   */
  lemma {:induction false} CollectRecords(names: seq<string>, outcomes: seq<FieldOutcome>, n: nat)
    requires n <= |names| == |outcomes|
    requires forall i, j :: 0 <= i < j < |names| ==> names[i] != names[j]
    ensures var o := Collect(names, outcomes, n);
      o.Checked? ==> Recorded(names, outcomes, n, o.result, o.errors)
    decreases n
  {
    if n > 0 {
      CollectRecords(names, outcomes, n - 1);
      var acc := Collect(names, outcomes, n - 1);
      if acc.Checked? {
        assert names[n - 1] !in names[..n - 1];
        RecordStep(names, outcomes, n, acc.result, acc.errors);
      }
    }
  }

  /**
   * `validateObject` on a spec whose field names are distinct (they are the
   * keys of the spec's `fields` object): the unknown-field abort happens
   * exactly when it is asked for and an undeclared key is present; otherwise
   * the outcome throws exactly when some field throws, and else carries a
   * result map and an error map with disjoint keys that record every
   * declared field, and reports an error exactly when some field failed.
   */
  lemma ObjectShape(lib: ValidatorLib, obj: map<string, Value>, spec: Spec)
    requires DistinctNames(spec)
    ensures var o := ObjectResult(lib, obj, spec);
      var outcomes := FieldOutcomes(lib, obj, spec);
      && (o.Rejected? <==> spec.failOnUnknownFields && HasUnknownKey(obj, spec))
      && (o.Rejected? ==> ErrorOf(o) == Some(UnknownField))
      && (o.Threw? <==> !o.Rejected? && exists i :: 0 <= i < |outcomes| && outcomes[i].FieldThrew?)
      && (o.Threw? ==> exists k :: 0 <= k < |outcomes| && FirstThrowAt(outcomes, k, o.crash))
      && (o.Checked? ==>
            && o.result.Keys !! o.errors.Keys
            && Recorded(FieldNames(spec), outcomes, |outcomes|, o.result, o.errors)
            && (ErrorOf(o).Some? <==> exists i :: 0 <= i < |outcomes| && outcomes[i].Failed?)
            && (ErrorOf(o).Some? ==> ErrorOf(o) == Some(Aggregate(o.errors))))
  {
    var names := FieldNames(spec);
    var outcomes := FieldOutcomes(lib, obj, spec);
    var n := |outcomes|;
    CollectThrows(names, outcomes, n);
    CollectRecords(names, outcomes, n);
    var o := ObjectResult(lib, obj, spec);
    if o.Checked? {
      assert names[..n] == names;
      forall k | k in o.result ensures k !in o.errors {
        var i :| 0 <= i < n && names[i] == k;
      }
      if o.errors != map[] {
        var k :| k in o.errors;
        var i :| 0 <= i < n && names[i] == k;
        assert outcomes[i].Failed?;
      } else {
        forall i | 0 <= i < n ensures !outcomes[i].Failed? {
          assert names[i] !in o.errors;
        }
      }
    }
  }

  /** The input restricted to its declared keys. */
  function Declared(obj: map<string, Value>, spec: Spec): (d: map<string, Value>)
    ensures forall k :: k in d <==> k in obj && k in FieldNames(spec)
  {
    map k | k in obj && k in FieldNames(spec) :: obj[k]
  }

  /**
   * Undeclared input keys never reach the result or the error map: unless
   * they trigger the unknown-field abort, the outcome is the one for the
   * input stripped of them.
   */
  lemma UndeclaredKeysIgnored(lib: ValidatorLib, obj: map<string, Value>, spec: Spec)
    ensures !HasUnknownKey(Declared(obj, spec), spec)
    ensures ObjectResult(lib, obj, spec) ==
      if spec.failOnUnknownFields && HasUnknownKey(obj, spec) then Rejected
      else ObjectResult(lib, Declared(obj, spec), spec)
  {
    var d := Declared(obj, spec);
    forall i | 0 <= i < |spec.fields|
      ensures FieldAt(lib, obj, spec, i) == FieldAt(lib, d, spec, i)
    {
      assert FieldNames(spec)[i] == spec.fields[i].0;
      assert Lookup(obj, spec.fields[i].0) == Lookup(d, spec.fields[i].0);
    }
    assert FieldOutcomes(lib, obj, spec) == FieldOutcomes(lib, d, spec);
  }

  /** The rules `{type: string, notNull: true, required: true}`. */
  function RequiredString(): FieldSpec
  {
    FieldSpec(true, true, None, None, StringType, false, None, false, None, false, false, None, None)
  }

  /** A spec with one container field `name` holding two required strings, `first` and `last`. */
  function PersonSpec(): Spec
  {
    var nameRules := Spec([("first", RequiredString()), ("last", RequiredString())], false);
    Spec([("name", FieldSpec(false, false, None, None, CustomType, false, None, false, None, false, false, None, Some(nameRules)))], false)
  }

  /**
   * Nested validation: a complete name passes as the nested result, and a
   * null last name is reported under `name` as a nested error that holds
   * only `last`, with nothing in the result.
   */
  lemma NestedExample(lib: ValidatorLib, first: Value, last: Value)
    requires first == Str("Dave") && last == Str("Finster")
    ensures ObjectResult(lib, map["name" := Obj(map["first" := first, "last" := last])], PersonSpec())
      == Checked(map["name" := Obj(map["first" := first, "last" := last])], map[])
    ensures ObjectResult(lib, map["name" := Obj(map["first" := first, "last" := Null])], PersonSpec())
      == Checked(map[], map["name" := Nested(Aggregate(map["last" := NullNotAllowed]))])
  {
    var spec := PersonSpec();
    var nameRules := spec.fields[0].1.fields.value;
    var names := FieldNames(nameRules);
    assert names == ["first", "last"];
    assert FieldResult(lib, first, RequiredString()) == Passed(first);
    assert FieldResult(lib, last, RequiredString()) == Passed(last);

    var good := map["first" := first, "last" := last];
    var goodOutcomes := FieldOutcomes(lib, good, nameRules);
    assert goodOutcomes == [Passed(first), Passed(last)];
    assert Collect(names, goodOutcomes, 1) == Checked(map["first" := first], map[]);
    assert ObjectResult(lib, good, nameRules) == Checked(good, map[]);
    var nameField := spec.fields[0].1;
    assert FieldNames(spec) == ["name"];
    assert ContainerResult(lib, Obj(good), nameField) == Passed(Obj(good));
    assert FieldAt(lib, map["name" := Obj(good)], spec, 0) == Passed(Obj(good));
    assert FieldOutcomes(lib, map["name" := Obj(good)], spec) == [Passed(Obj(good))];
    assert Collect(["name"], [Passed(Obj(good))], 1) == Checked(map["name" := Obj(good)], map[]);

    var bad := map["first" := first, "last" := Null];
    var badOutcomes := FieldOutcomes(lib, bad, nameRules);
    assert badOutcomes == [Passed(first), Failed(NullNotAllowed)];
    assert Collect(names, badOutcomes, 1) == Checked(map["first" := first], map[]);
    assert ObjectResult(lib, bad, nameRules) == Checked(map["first" := first], map["last" := NullNotAllowed]);
    var nested := Failed(Nested(Aggregate(map["last" := NullNotAllowed])));
    assert "last" in map["last" := NullNotAllowed];
    assert AsField(ObjectResult(lib, bad, nameRules)) == nested;
    assert ContainerResult(lib, Obj(bad), nameField) == nested;
    assert FieldAt(lib, map["name" := Obj(bad)], spec, 0) == nested;
    assert FieldOutcomes(lib, map["name" := Obj(bad)], spec) == [nested];
    assert Collect(["name"], [nested], 1) == Checked(map[], map["name" := nested.error]);
  }
}

=== FILE: values.dfy ===
/**
 * JavaScript values as the validator sees them, and the part of the
 * language's `ToString` conversion that `parseInt` and `RegExp.prototype.test`
 * apply to their argument.
 */
module Values {
  import Strings

  datatype Option<+T> = None | Some(value: T)

  /**
   * A value of an input object. Numbers are integers; `NaN` is the
   * not-a-number a failed `parseInt` produces. `Obj` is a plain object.
   */
  datatype Value =
    | Undefined
    | Null
    | Bool(b: bool)
    | Num(n: int)
    | NaN
    | Str(s: string)
    | List(items: seq<Value>)
    | Obj(props: map<string, Value>)

  /**
   * `obj[key]` on the object's own properties: a key it does not have reads as
   * `undefined`. Properties inherited from `Object.prototype` are not modelled.
   */
  function Lookup(obj: map<string, Value>, key: string): Value
  {
    if key in obj then obj[key] else Undefined
  }

  predicate IsDecimalDigit(c: char)
  {
    '0' <= c <= '9'
  }

  function DigitChar(d: nat): (c: char)
    requires d < 10
    ensures IsDecimalDigit(c)
  {
    ('0' as int + d) as char
  }

  /** The decimal numeral of `n`, without leading zeros. */
  function DecimalDigits(n: nat): (s: string)
    ensures |s| >= 1
    ensures forall i :: 0 <= i < |s| ==> IsDecimalDigit(s[i])
    ensures n > 0 ==> s[0] != '0'
  {
    if n < 10 then [DigitChar(n)] else DecimalDigits(n / 10) + [DigitChar(n % 10)]
  }

  /** `String(n)` for an integer (a leading minus sign for negatives). */
  function ShowInt(n: int): string
  {
    if n < 0 then "-" + DecimalDigits(-n) else DecimalDigits(n)
  }

  /**
   * `String(v)`: arrays join their elements' strings with commas, writing
   * `null` and `undefined` elements as empty strings; plain objects read
   * `[object Object]`.
   */
  function ToString(v: Value): string
  {
    match v
    case Undefined => "undefined"
    case Null => "null"
    case Bool(b) => if b then "true" else "false"
    case Num(n) => ShowInt(n)
    case NaN => "NaN"
    case Str(s) => s
    case List(items) =>
      Strings.Join(seq(|items|, i requires 0 <= i < |items| =>
        if items[i].Undefined? || items[i].Null? then "" else ToString(items[i])), ",")
    case Obj(_) => "[object Object]"
  }
}
